=== FILE: README.md ===
# Gamedex item linking, GiantBomb cache and metascore lookup in Dafny

This project models the core of the Gamedex front end. That core is the part that:

- links a game item found on one provider to the same game on another (Amazon, GiantBomb, Wikipedia);
- parses and caches GiantBomb search results and details;
- looks up, caches and displays Metacritic scores;
- handles the item list view's rendering, prices, quick attributes and sort comparators.

The model is split by source file:

- `js_values.dfy` (`JsValues`): the JavaScript value semantics the core relies on:
  - numbers with NaN, and a `<` that is false whenever NaN is involved;
  - ASCII lower-casing and whitespace;
  - number to string conversion, and string to number for digit strings.
- `patterns.dfy` (`Patterns`): the regular expressions of the core.
  - Each is written as an explicit matcher.
  - Global replace is modelled, and deleting every match is proved to leave a subsequence.
- `edit_distance.dfy` (`EditDistance`): `levenshtein`, which is the two-row dynamic programme on arrays.
  - It is proved against the recursive definition of edit distance.
  - That definition is proved to be zero exactly on equal strings, symmetric, to lie between the length difference and the longer length, and to satisfy the triangle inequality.
- `title_normalizer.dfy` (`TitleNormalizer`): `standardizeTitle` and `convertRomanNumerals`.
  - The Roman numeral converter is modelled quirk for quirk: the leading `III` is removed, the walk goes right to left, and the digit is mixed into the text.
- `similarity.dfy` (`Similarity`): `getSimilarityScore`, plus the best-score scan that all the `find*Match` functions share.
- `item_linker.dfy` (`ItemLinker`): `findItemOnAlternateProvider`, `findGiantbombMatch`, `findWikipediaMatch` and `findAmazonMatch`.
  - This includes the second Amazon search that runs without a browse node.
- `giantbomb.dfy` (`GiantBomb`): `parseGiantBombResultItem`, the queued item and detail caches, and the video cache.
- `items.dfy` (`Items`): the item record that the view and the metascore lookup both update.
- `metascore.dfy` (`Metascore`): the metascore cache, which is keyed by both identifiers.
  - Also modelled: search keywords, result matching, score parsing and the colour bands.
- `item_view.dfy` (`ItemView`): the named functions of the item view.
  - These are chunked rendering, list additions, the lowest price, quick attributes, the preliminary metascore and the two sort comparators.

Several things are parameters of the model rather than part of it:

- `Date.parse` is `Env.parseDate`.
- The platform table is `Env.standardPlatform`.
- The Amazon browse-node table is `amazonNode`.
- The GiantBomb calendar formatting is `calendar`.
- Whether the user is only viewing another user's list (read-only) is `isViewUser`.

Requests to remote services are modelled as sequences of requests issued. Responses are the arguments of the response handlers.

## Model

| member | source | states |
|---|---|---|
| JsValues.LessIsStrictOrder | js/tmz_metascore.js:74-82 | The `<` used by the score bands and sorts is irreflexive and asymmetric. It is false in both directions whenever NaN is involved. |
| JsValues.NatToStringRoundTrip | js/tmz_metascore.js:170-181 | Reading the decimal text of a number back as digits gives the number. |
| JsValues.StringToNumberOfNat | js/view/itemView.js:924-929 | ToNumber of a number's decimal text is that number. |
| Patterns.FirstMatch | js/service/itemLinker.js:27-38 | The leftmost match of a pattern: it matches there, nowhere earlier, and None means no position matches. |
| Patterns.LastClose | js/service/itemLinker.js:27 | The greedy `.*` of the bracket pattern ends at the last closing bracket in range, or there is none. |
| Patterns.DeleteAllIsSubsequence | js/service/itemLinker.js:27-38 | Deleting every match of a pattern leaves a subsequence of the input. |
| Patterns.ReplaceFromWithoutMatch | js/service/itemLinker.js:137 | A global replace with no match left returns the rest of the text unchanged. |
| Patterns.ReplaceFromAtFirstMatch | js/service/itemLinker.js:137 | A global replace keeps the text before the first match, puts the replacement in its place and goes on after the match. |
| Patterns.ReplaceSingleCharIsMap | js/tmz_metascore.js:36-41 | Replacing a single-character pattern globally is a character-by-character map. |
| Patterns.SubsequenceTransitive | js/service/itemLinker.js:27-38 | A subsequence of a subsequence is a subsequence, so the chain of deletions is one. |
| Patterns.BracketsKeep | js/service/itemLinker.js:27 | A text without an opening bracket is left as it is by the bracket deletion. |
| Patterns.BracketsTailMatch | js/service/itemLinker.js:27 | After a bracket-free text ending in a non-blank, the first bracket match starts at the blank before a one-line parenthesized tail and runs to the end. |
| Patterns.BracketsDeleteTail | js/service/itemLinker.js:27 | That tail is deleted together with the blank in front of it, and the text before it is kept. |
| Patterns.TrophiesKeep | js/service/itemLinker.js:30 | A text without a 'p' in either case is left as it is by the "trophies" deletion. |
| Patterns.EditionSuffixKeep | js/service/itemLinker.js:32 | A text with no blank eight characters before its end is left as it is by the "<word> edition" deletion. |
| Patterns.WithTailKeep | js/service/itemLinker.js:34 | A text without an 'i' in either case is left as it is by the " with " deletion. |
| Patterns.LeadingTheKeep | js/service/itemLinker.js:36 | A text starting with a non-blank other than 't' or 'T' keeps its start. |
| Patterns.LeadingTheDelete | js/service/itemLinker.js:36 | 'The ' followed by anything loses exactly those four characters. |
| EditDistance.Levenshtein | js/service/itemLinker.js:388-445 | The two-row array programme, including its empty-string shortcuts, returns exactly the edit distance of the two strings. |
| EditDistance.FillNextRow | js/service/itemLinker.js:424-441 | One pass of the inner loop turns the row for prefix j-1 of the second string into the row for prefix j. |
| EditDistance.NextCell | js/service/itemLinker.js:427-438 | The cell is the minimum of insertion, deletion and substitution, and equals the prefix distance. |
| EditDistance.Min3 | js/service/itemLinker.js:431-437 | Returns one of its three arguments, and it is below each of them. |
| EditDistance.DistanceToSelf | js/service/itemLinker.js:388-445 | A string is at distance 0 from itself. |
| EditDistance.DistanceBounds | js/service/itemLinker.js:388-445 | The distance is at least the length difference and at most the longer length. |
| EditDistance.DistanceZeroIffEqual | js/service/itemLinker.js:388-445 | The distance is 0 exactly when the strings are equal. |
| EditDistance.DistanceSymmetric | js/service/itemLinker.js:388-445 | The distance does not depend on argument order. |
| EditDistance.PrefixDistanceTriangle | js/service/itemLinker.js:388-445 | On prefixes, going from `a` to `c` through `b` is never shorter than going directly. |
| EditDistance.DistanceTriangle | js/service/itemLinker.js:388-445 | The triangle inequality: d(a, c) <= d(a, b) + d(b, c) for all strings. |
| TitleNormalizer.StripNoise | js/service/itemLinker.js:13-43 | The five deletions only remove characters: the result is a subsequence of the title, so it is no longer. |
| TitleNormalizer.StandardizeTitle | js/service/itemLinker.js:13-43 | The standardized title is no longer than the title and holds no upper-case ASCII letter. |
| TitleNormalizer.StandardizeCleanTitle | js/service/itemLinker.js:13-43 | A title that none of the five patterns matches is only lower-cased. |
| TitleNormalizer.EditionSuffixExample | js/service/itemLinker.js:32 | In 'Game Deluxe Edition' the edition deletion removes 'Deluxe Edition' and keeps the blank before it: 'Game '. |
| TitleNormalizer.StandardizeEditionExample | js/service/itemLinker.js:13-43 | `standardizeTitle('Game Deluxe Edition')` is 'game ', with the trailing blank. |
| TitleNormalizer.ZeldaStripped | js/service/itemLinker.js:26-36 | The deletions turn 'The Legend of Zelda: Skyward Sword (Special Edition)' into 'Legend of Zelda: Skyward Sword'. The parenthesis goes first, so the edition deletion never sees 'Edition'. |
| TitleNormalizer.StandardizeZeldaExample | js/service/itemLinker.js:13-43 | `standardizeTitle('The Legend of Zelda: Skyward Sword (Special Edition)')` is 'legend of zelda: skyward sword'. |
| TitleNormalizer.Lookup | js/service/itemLinker.js:116-126 | I, V and X give 1, 5 and 10. Any other character (lower case included) leaves the previous digit in place. |
| TitleNormalizer.Step | js/service/itemLinker.js:128-132 | A numeric accumulator stays numeric. The result is text exactly when the accumulator was text and the comparison `num < dec` failed. |
| TitleNormalizer.ConvertRomanNumerals | js/service/itemLinker.js:91-141 | The loop over the numeral's characters computes the conversion function. |
| TitleNormalizer.NoRunUnchanged | js/service/itemLinker.js:93-97 | A name with no space followed by a run of I, V and X is returned unchanged. |
| TitleNormalizer.RomanValue | js/service/itemLinker.js:102-132 | When the numeral contains III, its value is a number, never text. |
| TitleNormalizer.RomanConversion | js/service/itemLinker.js:91-141 | A name with no run is unchanged. Otherwise it is the text before the first run, then a blank and the first run's value, then the rest of the name with every later run replaced by that same text. |
| TitleNormalizer.TripleIExample | js/service/itemLinker.js:102-109 | " III" converts to 3. |
| TitleNormalizer.TripleIAfterVExample | js/service/itemLinker.js:102-132 | " VIII" converts to 8. |
| TitleNormalizer.FourIExample | js/service/itemLinker.js:102-132 | " IIII" converts to 2: III is removed and 3 - 1 is taken. |
| TitleNormalizer.TwoIExample | js/service/itemLinker.js:102-132 | " II" converts to the text "11", because the start value is the empty string and `+` concatenates. |
| TitleNormalizer.SixExample | js/service/itemLinker.js:102-132 | " VI" converts to the text "15". |
| TitleNormalizer.FourExample | js/service/itemLinker.js:102-132 | " IV" converts to 4. |
| TitleNormalizer.NineExample | js/service/itemLinker.js:102-132 | " IX" converts to 9. |
| TitleNormalizer.TripleINameExample | js/service/itemLinker.js:91-141 | The name " III" becomes " 3". |
| TitleNormalizer.TripleIAfterVNameExample | js/service/itemLinker.js:91-141 | The name " VIII" becomes " 8". |
| TitleNormalizer.TwoINameExample | js/service/itemLinker.js:91-141 | The name " II" becomes " 11". |
| TitleNormalizer.EveryRunGetsFirstValue | js/service/itemLinker.js:93-138 | "A II X" becomes "A 11 11": the global replace gives every run the value of the first run. |
| Similarity.DayDifference | js/service/itemLinker.js:61 | The floored day difference exists exactly when both dates parse, and it brackets the millisecond difference. |
| Similarity.DateTerm | js/service/itemLinker.js:58-71 | A candidate without a date scores 0. The term is 100 exactly when both dates fall on the same day; any other date scores at most 0. |
| Similarity.PlatformTerm | js/service/itemLinker.js:74-82 | The term is 0 or 20. It is 20 exactly when the candidate's platform standardizes to the source's platform. |
| Similarity.SimilarityScore | js/service/itemLinker.js:48-86 | The score is at most the name term (100 minus the edit distance) plus 120, so at most 220. With no date and no platform it is exactly the name term. |
| Similarity.NameOnlyScore | js/service/itemLinker.js:51-56 | With no date and no platform the score is 100 minus the edit distance. It reaches 100 exactly for the standardized name. |
| Similarity.ScoreAtMost220 | js/service/itemLinker.js:48-86 | No candidate scores above 220. Exactly 220 means the same name, the same day and the same platform. |
| Similarity.SameDayWinsBy100 | js/service/itemLinker.js:63-65 | A same-day release scores at least 100 more than any other date would. |
| Similarity.CloserDateScoresHigher | js/service/itemLinker.js:68-70 | Between two known dates that are not on the same day, the closer one scores higher. |
| Similarity.UnknownDateNoPenalty | js/service/itemLinker.js:67-70 | The placeholder date 1900-01-01, or an unparseable date, costs nothing. |
| Similarity.PlatformWorth20 | js/service/itemLinker.js:74-82 | A matching platform adds exactly 20. A non-matching platform scores the same as no platform. |
| Similarity.ScanStep | js/service/itemLinker.js:352-370 | One step of the best-score loop keeps the scan invariant: first best above the floor, or the seeded first candidate. |
| Similarity.SeededPickUnique | js/service/itemLinker.js:352-381 | The scan's pick is unique. |
| Similarity.FirstReachingBoundIsPicked | js/service/itemLinker.js:352-370 | When no score exceeds a bound, the first candidate that reaches it is the pick. |
| ItemLinker.FindItemOnAlternateProvider | js/service/itemLinker.js:147-180 | Coming from Amazon, it searches GiantBomb by the standardized name. Otherwise it searches Amazon by the raw name, with browse node 0 for the platform 'n/a'. |
| ItemLinker.GiantBombScores | js/service/itemLinker.js:352-363 | Each parsed result is scored against the source item. |
| ItemLinker.FindGiantbombMatch | js/service/itemLinker.js:341-383 | No results fails. Otherwise the first result of highest score (the first result if none beats the floor) is returned, parsed. |
| ItemLinker.PerfectGiantBombResultPicked | js/service/itemLinker.js:352-381 | The first result with the same name, day and platform is the one linked. |
| ItemLinker.WikipediaScores | js/service/itemLinker.js:223-236 | Wikipedia titles are scored by name alone. |
| ItemLinker.FindWikipediaMatch | js/service/itemLinker.js:212-250 | No titles means no callback. Otherwise the best title is returned by the same scan. |
| ItemLinker.ExactTitlePicked | js/service/itemLinker.js:223-249 | The first title equal to the standardized name is the one picked. |
| ItemLinker.AmazonScores | js/service/itemLinker.js:296-312 | Filtered Amazon results are not scored. The others are scored as listed. |
| ItemLinker.FindAmazonMatch | js/service/itemLinker.js:284-336 | The best considered result is returned. If no result was considered, a second search without a browse node is asked for; after that search, the item fails. |
| ItemLinker.LinkGiantBombItemToAmazon | js/service/itemLinker.js:147-180 | There are one or two searches. The second happens exactly when the first kept nothing, and failure means both kept nothing. |
| GiantBomb.BeforeBlank | js/service/giantbomb.js:65-66 | The original release date keeps what precedes its first blank. |
| GiantBomb.Padded | js/service/giantbomb.js:72-77 | A padded day or month stays truthy and is never one character long. A value of any other length is kept as it is. |
| GiantBomb.PaddedInput | js/service/giantbomb.js:69-79 | The parser changes only the expected day and month of its input, and only in the expected-date branch; the branch taken is the same before and after. |
| GiantBomb.ChosenDate | js/service/giantbomb.js:65-104 | There is no date exactly when none of the three branches applies. An original release date gives a prefix of it that holds no blank. |
| GiantBomb.ParseResultItem | js/service/giantbomb.js:54-144 | Field by field: the id twice, asin 0, the name, the platforms and platform 'n/a'; the chosen date and its calendar text when it is known and not 1900-01-01, else 1900-01-01 and 'Unknown'; each image its URL or the placeholder, the large image equal to the small one; the description or 'No Description'. |
| GiantBomb.ReleaseDatePriority | js/service/giantbomb.js:65-104 | The date comes from, in order: the original release date up to its first blank; the expected year, '-', the padded month, '-', the padded day; a truthy quarter, which gives the fixed 'year-03-31'. |
| GiantBomb.EarlierBranchIgnoresLaterFields | js/service/giantbomb.js:65-104 | With an original release date, the expected day, month, year and quarter do not change the date; with an expected date, the quarter does not. |
| GiantBomb.OneDigitDatePadded | js/service/giantbomb.js:72-77 | One-digit months and days are zero-padded. |
| GiantBomb.PaddingIsHarmless | js/service/giantbomb.js:72-77 | Padding is idempotent, and parsing the padded record gives the same item. |
| GiantBomb.QuarterValueIrrelevant | js/service/giantbomb.js:82-104 | Only the truthiness of the expected quarter matters. |
| GiantBomb.CachedEntry | js/service/giantbomb.js:324-347 | A cached value comes back as stored. An id with no entry gives null. |
| GiantBomb.QueuedCache.Get | js/service/giantbomb.js:165-192 | A cache hit is returned at once. Otherwise the callback is queued, and only the first queued lookup issues a request. |
| GiantBomb.QueuedCache.Respond | js/service/giantbomb.js:192-206 | Every queued callback, in order, gets the same results, which are cached, and the queue is emptied. |
| GiantBomb.QueuedCache.Fail | js/service/giantbomb.js:207 | Only the issuing lookup's error callback runs. The queue stays. |
| GiantBomb.VideoCache.Get | js/service/giantbomb.js:215-245 | A hit is returned. A miss always issues its own request. |
| GiantBomb.VideoCache.Respond | js/service/giantbomb.js:234-242 | The response is cached and handed to its callback. |
| GiantBomb.ConcurrentLookups | js/service/giantbomb.js:165-210 | n lookups before the response issue one request, and every caller is answered in order. A later lookup hits the cache. |
| GiantBomb.LookupAfterFailure | js/service/giantbomb.js:180-207 | After a failure only the first caller hears, and a later lookup queues behind the dead request without issuing one. |
| GiantBomb.TwoConcurrentVideoLookups | js/service/giantbomb.js:215-246 | Two video lookups before the response issue two requests. |
| GiantBomb.QueuedCache.constructor | js/service/giantbomb.js:251-296 | The detail cache is the same structure with its own maps, and starts empty. |
| Items.ScoreNumber | js/tmz_metascore.js:74-82 | `Number()` of a score field: null is 0, a number is itself, digit text is its value, '-' followed by digits is the negative value, and other text is NaN. |
| Metascore.Lookup | js/tmz_metascore.js:98-112 | An entry is found exactly when either id has one. The asin's entry wins over the GiantBomb id's. |
| Metascore.Store | js/tmz_metascore.js:117-127 | The keys are the old keys plus each id other than the text '0'. Those ids hold the score; every other key keeps its entry. |
| Metascore.StoreThenLookup | js/tmz_metascore.js:98-127 | Provided no entry sits under '0' yet, a lookup by the same ids after storing finds the score unless both ids are '0'. Other keys are untouched. |
| Metascore.TextIdsKeepZeroOut | js/tmz_metascore.js:117-127 | Text ids never create the key '0'. |
| Metascore.NumericZeroIdIsShared | js/tmz_metascore.js:117-127 | The numeric asin 0 passes the `!== '0'` guard. Its key '0' is then found by every item whose asin is '0'. |
| Metascore.ZeroEntryShadowsLaterScores | js/tmz_metascore.js:98-127 | Once '0' holds an entry, an item whose asin is '0' stores its new score under its GiantBomb id but reads the old '0' entry back. |
| Metascore.SearchKeywords | js/tmz_metascore.js:36-41 | The two replacements rewrite the terms one character at a time: a blank becomes '+' and a colon is dropped. The keywords hold neither and are no longer than the terms. |
| Metascore.TwoDigitsReadsBack | js/tmz_metascore.js:170-181 | A zero-padded two-digit field reads back as its number. |
| Metascore.FormatReleaseDate | js/tmz_metascore.js:170-181 | An invalid date gives exactly 'NaN-NaN-NaN'. A valid one starts with the year and a '-' and has at least five more characters. |
| Metascore.FormatReleaseDateShape | js/tmz_metascore.js:170-181 | The formatted date is year, '-', the two-digit month plus one, '-', the two-digit day. |
| Metascore.ResultScores | js/tmz_metascore.js:166-190 | Every search result gets a score, in order, and it is the similarity score of that result. |
| Metascore.GetMatchedSearchResult | js/tmz_metascore.js:156-198 | It matches exactly when some result scores above the floor, and the match is the first best. No results gives no match. |
| Metascore.ScoreOfMatch | js/tmz_metascore.js:132-151 | -1 exactly when there is no match or its score is empty. Otherwise the score text. The page is the match's page, or empty. |
| Metascore.MetascoreCache.GetMetascore | js/tmz_metascore.js:17-61 | A cached score is copied to the item with no request. Otherwise one request with the keywords goes out. |
| Metascore.MetascoreCache.ReceiveResults | js/tmz_metascore.js:47-59 | The matched score is written to the item and cached under both ids. |
| Metascore.MetascoreCache.AddToMetascoreCache | js/tmz_metascore.js:117-127 | The cache becomes the store of the score under each id other than '0'. |
| Metascore.LookupTwice | js/tmz_metascore.js:17-61 | A second lookup of the same item after the response is a hit, with a single search in total. |
| Metascore.DisplayScore | js/tmz_metascore.js:66-93 | The bands: below 0 shows 'n/a'; below 50, 50 to 75, and the rest (NaN included) are the three colours. |
| Metascore.DisplayClassMonotone | js/tmz_metascore.js:74-82 | A higher numeric score never gets a worse colour band. |
| Metascore.UnscoredShowsNotAvailable | js/tmz_metascore.js:66-93 | An unmatched score displays 'n/a'. A null score falls in the lowest colour band. |
| ItemView.GetLowestPrice | js/view/itemView.js:867-904 | Steam wins exactly when its price, missing counted as 9999, is below the lower of the Amazon prices. |
| ItemView.NoDataOrTieMeansAmazon | js/view/itemView.js:867-904 | With no prices, or a tie, Amazon wins. |
| ItemView.NaNMeansAmazon | js/view/itemView.js:867-904 | A NaN price never lets Steam win. |
| ItemView.Toggled | js/view/itemView.js:1043-1097 | A click gives one of the two states, and a different value from the current one when the states differ. |
| ItemView.ToggleTwice | js/view/itemView.js:1043-1097 | With two distinct states, toggling twice restores the on state and otherwise leaves the attribute off. |
| ItemView.ListView.SetQuickAttribute | js/view/itemView.js:1028-1104 | Another user's view changes nothing. Otherwise the chosen attribute toggles and the update is sent, and the play status stays a valid one. |
| ItemView.ListView.RenderChunk | js/view/itemView.js:403-415 | A chunk is displayed only while its view is still current. |
| ItemView.ListView.DeliverChunks | js/view/itemView.js:371-397 | A full chunk shows only while the list it was cut from is on screen. The remainder, checked against the list on screen when it fires, always shows. With the list unchanged, every item shows once, in order. |
| ItemView.FlattenAppend | js/view/itemView.js:353-397 | Flattening distributes over appending one chunk. |
| ItemView.Render | js/view/itemView.js:347-397 | Chunks of 25 whose concatenation is the list. The last chunk holds the remainder. |
| ItemView.LooseEquals | js/view/itemView.js:596 | A text tag equals exactly the same text. A number equals its own decimal text, and only strings that read as that number. |
| ItemView.UpdateListAdditions | js/view/itemView.js:583-610 | The current list re-renders exactly when some added tag loosely equals it. On the all-items view it re-renders when there is a tag. |
| ItemView.LooseEqualsExamples | js/view/itemView.js:594-598 | Loose equality converts the string to a number: 7 == '07' holds, while the texts '07' and '7' differ. The number 0 equals the empty string. |
| ItemView.LoadPreliminaryMetascore | js/view/itemView.js:909-917 | -1 shows as 'n/a'. Any other stored score shows as itself. |
| ItemView.PreliminaryAgreesWithDisplay | js/view/itemView.js:909-929 | For every score the lookup can store, except text that reads as a negative number, the preliminary text is what the display shows; it is 'n/a' exactly for no match, an empty score or the text 'n/a'. |
| ItemView.NegativeScoreTextDisagrees | js/view/itemView.js:909-929 | The excluded case: the scraped score '-3' is shown as '-3' by the preliminary step and as 'n/a' by the display. |
| ItemView.MetascoreSort | js/view/itemView.js:1293-1305 | The result is 1 exactly when the first score is below the second, and -1 otherwise. |
| ItemView.PriceSort | js/view/itemView.js:1310-1330 | The result is -1 exactly when the first price (missing counted as 0) is below the second. |
| ItemView.MetascoreSortOrder | js/view/itemView.js:1293-1305 | The comparator is antisymmetric on distinct numbers. It is -1 on equal scores and on NaN in either place. |
| ItemView.PriceSortOrder | js/view/itemView.js:1310-1330 | The comparator is antisymmetric on distinct prices. A missing price sorts as 0, and equal prices give 1. |

## Left out

- DOM and jQuery work (building list items, button classes, tooltips, `displayMetascore`'s element writes, `resetPlayStatusQuickAttributes`) is not modelled. Only the values written are.
- Transport is not modelled: `searchGiantBomb`, `getGiantBombItem`, the metascore `$.ajax`, the Amazon and Steam calls, `encodeURI`, and aborting a previous request. A request is an entry in a sequence, and a response is a handler argument.
- `getLinkedItemData`, `getGiantBombItemPlatform`, `getAmazonItemDetail_result` and `getGiantBombItemDetail_result` are not modelled. They only forward to the transport or to the view.
- Other modules are not part of this model: `wikipedia.js`, `Amazon.parseAmazonResultItem`, the `Utilities` platform tables, `User.isViewUser` and `ItemData`. They appear as parameters or as already-parsed inputs.
- Numbers are exact reals, not IEEE doubles. `Date.parse` and `moment` are a parameter. `parseFloat` and `parseInt` results are inputs.
- Strings are sequences of characters with ASCII case folding only. UTF-16 and Unicode case mapping are not modelled.
- Items.ScoreNumber: only digit strings, with or without one leading '-', convert to numbers. Decimals, exponents, a '+' sign, hexadecimal text, 'Infinity' and '-Infinity' are NaN (so '-Infinity' is shown in the favorable band rather than as 'n/a'), which is weaker than JavaScript's `Number()`.
- ItemView.LooseEquals: the same digit-only reading applies, so JavaScript's `7 == '7.0'` and `7 == '7e0'` are true but false in the model.
- ItemView.PreliminaryAgreesWithDisplay: it does not hold for scraped text that reads as a negative number. There the preliminary text is the text itself while the display shows 'n/a' (see ItemView.NegativeScoreTextDisagrees).
- Timing is not modelled: the `_.delay` between rendered chunks and the order in which callbacks re-enter. Each scenario fixes one interleaving.
- GiantBomb.PaddedInput: the in-place padding of the response object is modelled as a value, so aliasing of that object by other readers is not captured.
- ItemView.Render: the deep copy of each chunk is not modelled. Chunks are values.
- Object keys from `Object.prototype` (such as `constructor`) are not modelled as present in the caches' plain objects.
- `changeViewList`, `preventMultipleRequests` and the sort plugin's registration are not modelled. Neither are the item view functions that only read or write the DOM.

=== FILE: edit_distance.dfy ===
/** Unit-cost edit distance between two titles: the recursive definition,
    the two-row dynamic programme the scorer runs, and the properties the
    scorer relies on. */
module EditDistance {

  function Min3(x: nat, y: nat, z: nat): (m: nat)
    ensures m <= x && m <= y && m <= z
    ensures m == x || m == y || m == z
  {
    if x <= y && x <= z then x else if y <= z then y else z
  }

  function Cost(c: char, d: char): nat
  {
    if c == d then 0 else 1
  }

  /** Levenshtein distance between the prefixes `a[..i]` and `b[..j]`: the
      fewest single-character insertions, deletions and substitutions turning
      one into the other, by the textbook recurrence on the last characters. */
  function PrefixDistance(a: string, b: string, i: nat, j: nat): nat
    requires i <= |a| && j <= |b|
    decreases i + j
  {
    if i == 0 then j
    else if j == 0 then i
    else Min3(PrefixDistance(a, b, i - 1, j) + 1,
              PrefixDistance(a, b, i, j - 1) + 1,
              PrefixDistance(a, b, i - 1, j - 1) + Cost(a[i - 1], b[j - 1]))
  }

  /** Levenshtein distance between two whole strings. */
  function Distance(a: string, b: string): nat
  {
    PrefixDistance(a, b, |a|, |b|)
  }

  /** `levenshtein(s1, s2)`: returns 0 for equal strings and the other
      string's length when one is empty; otherwise keeps one row `v0` of the
      table, fills the next row `v1` from it, and swaps the two. */
  method Levenshtein(s1: string, s2: string) returns (d: nat)
    ensures d == Distance(s1, s2)
  {
    if s1 == s2 {
      DistanceToSelf(s1);
      return 0;
    }
    if |s1| == 0 {
      return |s2|;
    }
    if |s2| == 0 {
      return |s1|;
    }
    var v0 := new nat[|s1| + 1];
    var v1 := new nat[|s1| + 1];
    var i := 0;
    while i < |s1| + 1
      invariant 0 <= i <= |s1| + 1
      invariant forall k {:trigger v0[k]} :: 0 <= k < i ==> v0[k] == PrefixDistance(s1, s2, k, 0)
    {
      v0[i] := i;
      i := i + 1;
    }
    var j := 1;
    while j <= |s2|
      invariant 1 <= j <= |s2| + 1
      invariant fresh(v0) && fresh(v1)
      invariant v0 != v1 && v0.Length == |s1| + 1 && v1.Length == |s1| + 1
      invariant forall k {:trigger v0[k]} :: 0 <= k <= |s1| ==> v0[k] == PrefixDistance(s1, s2, k, j - 1)
    {
      FillNextRow(s1, s2, j, v0, v1);
      v0, v1 := v1, v0;
      j := j + 1;
    }
    d := v0[|s1|];
  }

  /** The inner loop of `levenshtein`: row `j` of the table from row `j - 1`. */
  method FillNextRow(s1: string, s2: string, j: nat, v0: array<nat>, v1: array<nat>)
    requires 0 < j <= |s2|
    requires v0 != v1 && v0.Length == |s1| + 1 && v1.Length == |s1| + 1
    requires forall m {:trigger v0[m]} :: 0 <= m <= |s1| ==> v0[m] == PrefixDistance(s1, s2, m, j - 1)
    modifies v1
    ensures forall m {:trigger v1[m]} :: 0 <= m <= |s1| ==> v1[m] == PrefixDistance(s1, s2, m, j)
  {
    v1[0] := j;
    var k := 0;
    while k < |s1|
      invariant 0 <= k <= |s1|
      invariant forall m {:trigger v1[m]} :: 0 <= m <= k ==> v1[m] == PrefixDistance(s1, s2, m, j)
    {
      var mMin := NextCell(s1, s2, k, j, v0[k + 1], v1[k], v0[k]);
      v1[k + 1] := mMin;
      k := k + 1;
    }
  }

  /** One cell of the inner loop: the smallest of deletion, insertion and
      substitution, taken in the order `levenshtein` compares them. */
  method NextCell(s1: string, s2: string, k: nat, j: nat, above: nat, left: nat, diag: nat)
    returns (mMin: nat)
    requires k < |s1| && 0 < j <= |s2|
    requires above == PrefixDistance(s1, s2, k + 1, j - 1)
    requires left == PrefixDistance(s1, s2, k, j)
    requires diag == PrefixDistance(s1, s2, k, j - 1)
    ensures mMin == PrefixDistance(s1, s2, k + 1, j)
  {
    var cost := if s1[k] == s2[j - 1] then 0 else 1;
    mMin := above + 1;
    var b := left + 1;
    var c := diag + cost;
    if b < mMin {
      mMin := b;
    }
    if c < mMin {
      mMin := c;
    }
  }

  // -------------------------------------------------------------------------
  // Properties

  lemma {:induction false} PrefixDistanceToSelf(s: string, i: nat)
    requires i <= |s|
    ensures PrefixDistance(s, s, i, i) == 0
  {
    if i > 0 {
      PrefixDistanceToSelf(s, i - 1);
    }
  }

  lemma DistanceToSelf(s: string)
    ensures Distance(s, s) == 0
  {
    PrefixDistanceToSelf(s, |s|);
  }

  /** The distance between prefixes is at least the difference of their
      lengths ... */
  lemma {:induction false} PrefixDistanceLower(a: string, b: string, i: nat, j: nat)
    requires i <= |a| && j <= |b|
    ensures i - j <= PrefixDistance(a, b, i, j) && j - i <= PrefixDistance(a, b, i, j)
    decreases i + j
  {
    if i > 0 && j > 0 {
      PrefixDistanceLower(a, b, i - 1, j);
      PrefixDistanceLower(a, b, i, j - 1);
      PrefixDistanceLower(a, b, i - 1, j - 1);
    }
  }

  /** ... and at most the longer length. */
  lemma {:induction false} PrefixDistanceUpper(a: string, b: string, i: nat, j: nat)
    requires i <= |a| && j <= |b|
    ensures PrefixDistance(a, b, i, j) <= if i < j then j else i
    decreases i + j
  {
    if i > 0 && j > 0 {
      PrefixDistanceUpper(a, b, i - 1, j - 1);
    }
  }

  lemma DistanceBounds(a: string, b: string)
    ensures |a| - |b| <= Distance(a, b) && |b| - |a| <= Distance(a, b)
    ensures Distance(a, b) <= if |a| < |b| then |b| else |a|
  {
    PrefixDistanceLower(a, b, |a|, |b|);
    PrefixDistanceUpper(a, b, |a|, |b|);
  }

  lemma {:induction false} PrefixDistanceZero(a: string, b: string, i: nat, j: nat)
    requires i <= |a| && j <= |b|
    requires PrefixDistance(a, b, i, j) == 0
    ensures i == j && a[..i] == b[..j]
    decreases i + j
  {
    PrefixDistanceLower(a, b, i, j);
    if i > 0 {
      PrefixDistanceZero(a, b, i - 1, j - 1);
      assert a[..i] == a[..i - 1] + [a[i - 1]];
      assert b[..j] == b[..j - 1] + [b[j - 1]];
    }
  }

  /** The distance is zero exactly for equal strings. */
  lemma DistanceZeroIffEqual(a: string, b: string)
    ensures Distance(a, b) == 0 <==> a == b
  {
    if a == b {
      DistanceToSelf(a);
    }
    if Distance(a, b) == 0 {
      PrefixDistanceZero(a, b, |a|, |b|);
      assert a == a[..|a|] && b == b[..|b|];
    }
  }

  lemma {:induction false} PrefixDistanceSymmetric(a: string, b: string, i: nat, j: nat)
    requires i <= |a| && j <= |b|
    ensures PrefixDistance(a, b, i, j) == PrefixDistance(b, a, j, i)
    decreases i + j
  {
    if i > 0 && j > 0 {
      PrefixDistanceSymmetric(a, b, i - 1, j);
      PrefixDistanceSymmetric(a, b, i, j - 1);
      PrefixDistanceSymmetric(a, b, i - 1, j - 1);
    }
  }

  /** Distance does not depend on the order of its arguments. */
  lemma DistanceSymmetric(a: string, b: string)
    ensures Distance(a, b) == Distance(b, a)
  {
    PrefixDistanceSymmetric(a, b, |a|, |b|);
  }

  /** A cell is reached by one of its three ways, and each of them bounds it
      from above. */
  lemma PrefixDistanceStep(a: string, b: string, i: nat, j: nat)
    requires 0 < i <= |a| && 0 < j <= |b|
    ensures PrefixDistance(a, b, i, j) <= PrefixDistance(a, b, i - 1, j) + 1
    ensures PrefixDistance(a, b, i, j) <= PrefixDistance(a, b, i, j - 1) + 1
    ensures PrefixDistance(a, b, i, j) <= PrefixDistance(a, b, i - 1, j - 1) + Cost(a[i - 1], b[j - 1])
    ensures PrefixDistance(a, b, i, j) == PrefixDistance(a, b, i - 1, j) + 1
         || PrefixDistance(a, b, i, j) == PrefixDistance(a, b, i, j - 1) + 1
         || PrefixDistance(a, b, i, j) == PrefixDistance(a, b, i - 1, j - 1) + Cost(a[i - 1], b[j - 1])
  {
  }

  /** The triangle inequality when one of the three prefixes is empty. */
  lemma PrefixDistanceTriangleBase(a: string, b: string, c: string, i: nat, j: nat, k: nat)
    requires i <= |a| && j <= |b| && k <= |c|
    requires i == 0 || j == 0 || k == 0
    ensures PrefixDistance(a, c, i, k) <= PrefixDistance(a, b, i, j) + PrefixDistance(b, c, j, k)
  {
    PrefixDistanceLower(a, b, i, j);
    PrefixDistanceLower(b, c, j, k);
    PrefixDistanceUpper(a, c, i, k);
  }

  /** The inductive step when the path from `a` to `b` ends by dropping
      `a[i-1]`: dropping it first is a path from `a` to `c` as well. */
  lemma {:induction false} TriangleDropFirst(a: string, b: string, c: string, i: nat, j: nat, k: nat)
    requires 0 < i <= |a| && 0 < j <= |b| && 0 < k <= |c|
    requires PrefixDistance(a, b, i, j) == PrefixDistance(a, b, i - 1, j) + 1
    ensures PrefixDistance(a, c, i, k) <= PrefixDistance(a, b, i, j) + PrefixDistance(b, c, j, k)
    decreases i + j + k, 1
  {
    PrefixDistanceStep(a, c, i, k);
    PrefixDistanceTriangle(a, b, c, i - 1, j, k);
  }

  /** The inductive step when the path from `b` to `c` ends by adding
      `c[k-1]`: adding it last is a path from `a` to `c` as well. */
  lemma {:induction false} TriangleAddLast(a: string, b: string, c: string, i: nat, j: nat, k: nat)
    requires 0 < i <= |a| && 0 < j <= |b| && 0 < k <= |c|
    requires PrefixDistance(b, c, j, k) == PrefixDistance(b, c, j, k - 1) + 1
    ensures PrefixDistance(a, c, i, k) <= PrefixDistance(a, b, i, j) + PrefixDistance(b, c, j, k)
    decreases i + j + k, 1
  {
    PrefixDistanceStep(a, c, i, k);
    PrefixDistanceTriangle(a, b, c, i, j, k - 1);
  }

  /** The path from `a[..i]` to `b[..j]` ends by adding `b[j-1]` or by
      matching `a[i-1]` with it. */
  predicate EndsInB(a: string, b: string, i: nat, j: nat)
    requires 0 < i <= |a| && 0 < j <= |b|
  {
    PrefixDistance(a, b, i, j) == PrefixDistance(a, b, i, j - 1) + 1
    || PrefixDistance(a, b, i, j) == PrefixDistance(a, b, i - 1, j - 1) + Cost(a[i - 1], b[j - 1])
  }

  /** The path from `b[..j]` to `c[..k]` ends by dropping `b[j-1]` or by
      matching it with `c[k-1]`. */
  predicate StartsFromB(b: string, c: string, j: nat, k: nat)
    requires 0 < j <= |b| && 0 < k <= |c|
  {
    PrefixDistance(b, c, j, k) == PrefixDistance(b, c, j - 1, k) + 1
    || PrefixDistance(b, c, j, k) == PrefixDistance(b, c, j - 1, k - 1) + Cost(b[j - 1], c[k - 1])
  }

  /** The last step when both paths through `b` spend their last edit on
      `b[j-1]`: the four paths without it bound a path from `a` to `c`. */
  lemma TriangleInnerCase(a: string, b: string, c: string, i: nat, j: nat, k: nat)
    requires 0 < i <= |a| && 0 < j <= |b| && 0 < k <= |c|
    requires PrefixDistance(a, c, i, k) <= PrefixDistance(a, b, i, j - 1) + PrefixDistance(b, c, j - 1, k)
    requires PrefixDistance(a, c, i, k - 1) <= PrefixDistance(a, b, i, j - 1) + PrefixDistance(b, c, j - 1, k - 1)
    requires PrefixDistance(a, c, i - 1, k) <= PrefixDistance(a, b, i - 1, j - 1) + PrefixDistance(b, c, j - 1, k)
    requires PrefixDistance(a, c, i - 1, k - 1) <= PrefixDistance(a, b, i - 1, j - 1) + PrefixDistance(b, c, j - 1, k - 1)
    requires EndsInB(a, b, i, j) && StartsFromB(b, c, j, k)
    ensures PrefixDistance(a, c, i, k) <= PrefixDistance(a, b, i, j) + PrefixDistance(b, c, j, k)
  {
    PrefixDistanceStep(a, c, i, k);
    assert Cost(a[i - 1], c[k - 1]) <= Cost(a[i - 1], b[j - 1]) + Cost(b[j - 1], c[k - 1]);
  }

  /** The inductive step for that case: the two smaller instances that keep
      all of `a[..i]`. */
  lemma {:induction false} TriangleInnerStep(a: string, b: string, c: string, i: nat, j: nat, k: nat)
    requires 0 < i <= |a| && 0 < j <= |b| && 0 < k <= |c|
    requires EndsInB(a, b, i, j) && StartsFromB(b, c, j, k)
    ensures PrefixDistance(a, c, i, k) <= PrefixDistance(a, b, i, j) + PrefixDistance(b, c, j, k)
    decreases i + j + k, 2
  {
    TriangleWithoutLastOfB(a, b, c, i, j, k);
    TriangleWithoutLastOfB(a, b, c, i, j, k - 1);
    TriangleInnerRest(a, b, c, i, j, k);
  }

  /** The rest of that step: the two smaller instances that drop `a[i-1]`. */
  lemma {:induction false} TriangleInnerRest(a: string, b: string, c: string, i: nat, j: nat, k: nat)
    requires 0 < i <= |a| && 0 < j <= |b| && 0 < k <= |c|
    requires PrefixDistance(a, c, i, k) <= PrefixDistance(a, b, i, j - 1) + PrefixDistance(b, c, j - 1, k)
    requires PrefixDistance(a, c, i, k - 1) <= PrefixDistance(a, b, i, j - 1) + PrefixDistance(b, c, j - 1, k - 1)
    requires EndsInB(a, b, i, j) && StartsFromB(b, c, j, k)
    ensures PrefixDistance(a, c, i, k) <= PrefixDistance(a, b, i, j) + PrefixDistance(b, c, j, k)
    decreases i + j + k, 1
  {
    TriangleWithoutLastOfB(a, b, c, i - 1, j, k);
    TriangleInnerLast(a, b, c, i, j, k);
  }

  /** The last of the four smaller instances, which drops `a[i-1]` and
      `c[k-1]`. */
  lemma {:induction false} TriangleInnerLast(a: string, b: string, c: string, i: nat, j: nat, k: nat)
    requires 0 < i <= |a| && 0 < j <= |b| && 0 < k <= |c|
    requires PrefixDistance(a, c, i, k) <= PrefixDistance(a, b, i, j - 1) + PrefixDistance(b, c, j - 1, k)
    requires PrefixDistance(a, c, i, k - 1) <= PrefixDistance(a, b, i, j - 1) + PrefixDistance(b, c, j - 1, k - 1)
    requires PrefixDistance(a, c, i - 1, k) <= PrefixDistance(a, b, i - 1, j - 1) + PrefixDistance(b, c, j - 1, k)
    requires EndsInB(a, b, i, j) && StartsFromB(b, c, j, k)
    ensures PrefixDistance(a, c, i, k) <= PrefixDistance(a, b, i, j) + PrefixDistance(b, c, j, k)
    decreases i + j + k, 0
  {
    TriangleWithoutLastOfB(a, b, c, i - 1, j, k - 1);
    TriangleInnerCase(a, b, c, i, j, k);
  }

  /** The smaller instance that drops the last character of `b[..j]`. */
  lemma {:induction false} TriangleWithoutLastOfB(a: string, b: string, c: string, i: nat, j: nat, k: nat)
    requires i <= |a| && 0 < j <= |b| && k <= |c|
    ensures PrefixDistance(a, c, i, k) <= PrefixDistance(a, b, i, j - 1) + PrefixDistance(b, c, j - 1, k)
    decreases i + j + k, 0
  {
    PrefixDistanceTriangle(a, b, c, i, j - 1, k);
  }

  /** The triangle inequality on prefixes, by induction on the three prefix
      lengths: the last edit of each of the two paths through `b` decides
      which smaller instance bounds the direct path. */
  lemma {:induction false} PrefixDistanceTriangle(a: string, b: string, c: string, i: nat, j: nat, k: nat)
    requires i <= |a| && j <= |b| && k <= |c|
    ensures PrefixDistance(a, c, i, k) <= PrefixDistance(a, b, i, j) + PrefixDistance(b, c, j, k)
    decreases i + j + k, 3
  {
    if i == 0 || j == 0 || k == 0 {
      PrefixDistanceTriangleBase(a, b, c, i, j, k);
    } else if PrefixDistance(a, b, i, j) == PrefixDistance(a, b, i - 1, j) + 1 {
      TriangleDropFirst(a, b, c, i, j, k);
    } else if PrefixDistance(b, c, j, k) == PrefixDistance(b, c, j, k - 1) + 1 {
      TriangleAddLast(a, b, c, i, j, k);
    } else {
      PrefixDistanceStep(a, b, i, j);
      PrefixDistanceStep(b, c, j, k);
      TriangleInnerStep(a, b, c, i, j, k);
    }
  }

  /** Going through a third string is never shorter: the triangle
      inequality, which with the properties above makes the distance a
      metric. */
  lemma DistanceTriangle(a: string, b: string, c: string)
    ensures Distance(a, c) <= Distance(a, b) + Distance(b, c)
  {
    PrefixDistanceTriangle(a, b, c, |a|, |b|, |c|);
  }
}

=== FILE: giantbomb.dfy ===
/** The GiantBomb adapter: turning one result of the GiantBomb API into the
    application's item record, and the module-level caches with per-id
    callback queues that make concurrent lookups of one id share a single
    request. */
module GiantBomb {
  import opened JsValues

  // -------------------------------------------------------------------------
  // Result records

  /** A JSON scalar field of a result: missing or null, a number, or a
      string. */
  datatype Field = Absent | Number(n: nat) | Str(s: string)
  {
    /** JavaScript truthiness. */
    predicate Truthy()
    {
      match this
      case Absent => false
      case Number(n) => n != 0
      case Str(s) => s != ""
    }

    /** `field.toString()` (and what `+` with a string appends). */
    function Text(): string
      requires Truthy()
    {
      match this
      case Number(n) => NatToString(n)
      case Str(s) => s
    }
  }

  datatype Image = Image(smallUrl: Option<string>, thumbUrl: Option<string>)

  /** The fields of a GiantBomb result that the parser reads. */
  datatype ResultItem = ResultItem(
    id: nat,
    name: string,
    platforms: seq<string>,
    originalReleaseDate: Option<string>,
    expectedDay: Field,
    expectedMonth: Field,
    expectedYear: Field,
    expectedQuarter: Field,
    image: Option<Image>,
    description: Option<string>)

  /** The item record the parser builds. */
  datatype DetailItem = DetailItem(
    id: nat,
    asin: nat,
    gbombID: nat,
    name: string,
    platform: string,
    platforms: seq<string>,
    releaseDate: string,
    calendarDate: string,
    smallImage: string,
    thumbnailImage: string,
    largeImage: string,
    description: string)

  const UnknownDate: string := "1900-01-01"
  const NoImage: string := "no image.png"
  const NoDescription: string := "No Description"

  /** A string is truthy and not empty (the parser tests both). */
  predicate Present(s: Option<string>)
  {
    s.Some? && s.value != ""
  }

  /** `s.split(' ')[0]`: everything before the first blank. */
  function BeforeBlank(s: string): (r: string)
    ensures |r| <= |s| && r == s[..|r|]
    ensures ' ' !in r
    ensures |r| < |s| ==> s[|r|] == ' '
  {
    if s == [] || s[0] == ' ' then [] else [s[0]] + BeforeBlank(s[1..])
  }

  /** Day or month after the parser's padding: a one-character value gets a
      leading '0' and becomes a string. */
  function Padded(f: Field): (r: Field)
    requires f.Truthy()
    ensures r.Truthy() && |r.Text()| != 1
    ensures |f.Text()| != 1 ==> r == f
  {
    if |f.Text()| == 1 then Str("0" + f.Text()) else f
  }

  /** The parser takes the expected-date branch: no original release date,
      and day, month and year all truthy. */
  predicate UsesExpectedDate(r: ResultItem)
  {
    !Present(r.originalReleaseDate) && r.expectedDay.Truthy() && r.expectedMonth.Truthy() && r.expectedYear.Truthy()
  }

  /** The result as the parser leaves it: it pads the expected day and month
      of its input in place. */
  function PaddedInput(r: ResultItem): (p: ResultItem)
    ensures UsesExpectedDate(p) == UsesExpectedDate(r)
    ensures !UsesExpectedDate(r) ==> p == r
    ensures p.(expectedDay := r.expectedDay, expectedMonth := r.expectedMonth) == r
  {
    if UsesExpectedDate(r) then r.(expectedDay := Padded(r.expectedDay), expectedMonth := Padded(r.expectedMonth))
    else r
  }

  /** The release date the three branches choose, before the unknown-date
      fallback; None when none applies and it stays undefined. */
  function ChosenDate(r: ResultItem): (c: Option<string>)
    ensures c.None? <==> !Present(r.originalReleaseDate) && !UsesExpectedDate(r) && !r.expectedQuarter.Truthy()
    ensures Present(r.originalReleaseDate) ==>
              c.Some? && ' ' !in c.value && |c.value| <= |r.originalReleaseDate.value|
              && c.value == r.originalReleaseDate.value[..|c.value|]
  {
    if Present(r.originalReleaseDate) then Some(BeforeBlank(r.originalReleaseDate.value))
    else if UsesExpectedDate(r) then
      Some(r.expectedYear.Text() + "-" + Padded(r.expectedMonth).Text() + "-" + Padded(r.expectedDay).Text())
    else if r.expectedQuarter.Truthy() then Some("year-03-31")
    else None
  }

  /** An image slot: the URL when the image and the URL are present, the
      placeholder otherwise. */
  function ImageSlot(image: Option<Image>, url: Image -> Option<string>): string
  {
    if image.Some? && Present(url(image.value)) then url(image.value).value else NoImage
  }

  /** `parseGiantBombResultItem(resultItem)`; `calendar` stands for
      `moment(date, "YYYY-MM-DD").calendar()`. */
  function ParseResultItem(r: ResultItem, calendar: string -> string): (d: DetailItem)
    ensures d.id == r.id && d.gbombID == r.id && d.asin == 0 && d.platform == "n/a"
    ensures d.name == r.name && d.platforms == r.platforms
    ensures d.releaseDate != ""
    ensures var c := ChosenDate(r);
            if c.Some? && c.value != "" && c.value != UnknownDate
            then d.releaseDate == c.value && d.calendarDate == calendar(c.value)
            else d.releaseDate == UnknownDate && d.calendarDate == "Unknown"
    ensures d.largeImage == d.smallImage
    ensures d.smallImage == if r.image.Some? && Present(r.image.value.smallUrl) then r.image.value.smallUrl.value else NoImage
    ensures d.thumbnailImage == if r.image.Some? && Present(r.image.value.thumbUrl) then r.image.value.thumbUrl.value else NoImage
    ensures d.description == if Present(r.description) then r.description.value else NoDescription
  {
    var chosen := ChosenDate(r);
    var known := chosen.Some? && chosen.value != "" && chosen.value != UnknownDate;
    DetailItem(
      id := r.id,
      asin := 0,
      gbombID := r.id,
      name := r.name,
      platform := "n/a",
      platforms := r.platforms,
      releaseDate := if known then chosen.value else UnknownDate,
      calendarDate := if known then calendar(chosen.value) else "Unknown",
      smallImage := ImageSlot(r.image, (i: Image) => i.smallUrl),
      thumbnailImage := ImageSlot(r.image, (i: Image) => i.thumbUrl),
      largeImage := ImageSlot(r.image, (i: Image) => i.smallUrl),
      description := if Present(r.description) then r.description.value else NoDescription)
  }

  // -------------------------------------------------------------------------
  // Properties of the parser

  /** The branches are taken in order: the original release date wins, up
      to its first blank; then the expected day, month and year, with day and
      month padded to two characters; then a truthy quarter, which always
      gives the literal 'year-03-31' whatever quarter it names. */
  lemma ReleaseDatePriority(r: ResultItem)
    ensures Present(r.originalReleaseDate) ==> ChosenDate(r) == Some(BeforeBlank(r.originalReleaseDate.value))
    ensures UsesExpectedDate(r) ==>
              ChosenDate(r) == Some(r.expectedYear.Text() + "-" + Padded(r.expectedMonth).Text() + "-" + Padded(r.expectedDay).Text())
    ensures !Present(r.originalReleaseDate) && !UsesExpectedDate(r) ==>
              (ChosenDate(r).Some? <==> r.expectedQuarter.Truthy())
    ensures !Present(r.originalReleaseDate) && !UsesExpectedDate(r) && r.expectedQuarter.Truthy() ==>
              ChosenDate(r) == Some("year-03-31")
  {
  }

  /** An earlier branch ignores the fields of the later ones: with an
      original release date the expected fields may hold anything, and with
      an expected date the quarter may hold anything. */
  lemma EarlierBranchIgnoresLaterFields(r: ResultItem, d: Field, m: Field, y: Field, q: Field)
    ensures Present(r.originalReleaseDate) ==>
              ChosenDate(r.(expectedDay := d, expectedMonth := m, expectedYear := y, expectedQuarter := q)) == ChosenDate(r)
    ensures UsesExpectedDate(r) ==> ChosenDate(r.(expectedQuarter := q)) == ChosenDate(r)
  {
  }

  /** A one-digit numeric day and month come out zero-padded. */
  lemma OneDigitDatePadded(r: ResultItem, y: nat, m: nat, dd: nat)
    requires !Present(r.originalReleaseDate)
    requires r.expectedYear == Number(y) && 0 < y
    requires r.expectedMonth == Number(m) && 0 < m < 10 && r.expectedDay == Number(dd) && 0 < dd < 10
    ensures ChosenDate(r) == Some(NatToString(y) + "-0" + [DigitChar(m)] + "-0" + [DigitChar(dd)])
  {
    assert Padded(r.expectedMonth) == Str("0" + [DigitChar(m)]);
    assert Padded(r.expectedDay) == Str("0" + [DigitChar(dd)]);
    var ys, ms, ds := NatToString(y), [DigitChar(m)], [DigitChar(dd)];
    assert ChosenDate(r).value == ys + "-" + ("0" + ms) + "-" + ("0" + ds);
    assert ys + "-" + ("0" + ms) + "-" + ("0" + ds) == ys + "-0" + ms + "-0" + ds;
  }

  /** Padding is idempotent, and parsing the padded input gives the same
      record: the in-place change is invisible to a second parse. */
  lemma PaddingIsHarmless(r: ResultItem, calendar: string -> string)
    ensures PaddedInput(PaddedInput(r)) == PaddedInput(r)
    ensures ParseResultItem(PaddedInput(r), calendar) == ParseResultItem(r, calendar)
  {
    if UsesExpectedDate(r) {
      var p := PaddedInput(r);
      assert Padded(p.expectedDay) == p.expectedDay;
      assert Padded(p.expectedMonth) == p.expectedMonth;
      assert ChosenDate(p) == ChosenDate(r);
    }
  }

  /** Only the truthiness of the quarter matters. */
  lemma QuarterValueIrrelevant(r: ResultItem, q: Field, calendar: string -> string)
    requires q.Truthy() && r.expectedQuarter.Truthy()
    ensures ParseResultItem(r.(expectedQuarter := q), calendar) == ParseResultItem(r, calendar)
  {
    assert ChosenDate(r.(expectedQuarter := q)) == ChosenDate(r);
  }

  // -------------------------------------------------------------------------
  // Caches

  /** `data.results` of a response: falsy (null or missing) or a body. */
  datatype Payload = Missing | Results(body: string)

  /** `getCachedData(id)` and `getCachedVideo(id)`: the stored value, null
      when there is none. */
  function CachedEntry(cache: map<string, Payload>, id: string): (p: Payload)
    ensures p.Results? ==> id in cache && cache[id] == p
    ensures id !in cache ==> p.Missing?
  {
    if id in cache then cache[id] else Missing
  }

  /** A callback, by identity. */
  type CallbackId = nat

  /** The cache, queue map and request traffic behind `getGiantBombItemData`
      (and, with its own maps, `getGiantBombItemDetail`): lookups of an id
      that is not cached queue their success callbacks, and only the lookup
      that makes the queue one long issues a request. */
  class QueuedCache {
    /** `giantBombDataCache`: id to the cached `data.results`. */
    var cache: map<string, Payload>
    /** `getGiantBombItemDataQueue`: id to the waiting success callbacks. */
    var queue: map<string, seq<CallbackId>>
    /** Ids with a request under way, with the error callback it was given. */
    var inFlight: map<string, CallbackId>
    /** Every request issued, in order. */
    var requests: seq<string>

    /** A request is only under way for an id with waiting callbacks, and an
        id with waiting callbacks has no usable cache entry. */
    ghost predicate Valid()
      reads this
    {
      (forall id :: id in inFlight ==> id in queue && queue[id] != [])
      && (forall id :: id in queue && queue[id] != [] ==> !(id in cache && cache[id].Results?))
    }

    constructor ()
      ensures Valid()
      ensures cache == map[] && queue == map[] && inFlight == map[] && requests == []
    {
      cache := map[];
      queue := map[];
      inFlight := map[];
      requests := [];
    }

    /** `getCachedData(id)`: the stored value, null when there is none. */
    function CachedData(id: string): Payload
      reads this
    {
      CachedEntry(cache, id)
    }

    /** The queue for `id`, empty when the id has none. */
    function Waiting(id: string): seq<CallbackId>
      reads this
    {
      if id in queue then queue[id] else []
    }

    /** `getGiantBombItemData(id, onSuccess, onError)`: a truthy cached value
        is handed back at once; otherwise `onSuccess` joins the queue and a
        request goes out only when the queue was empty. */
    method Get(id: string, onSuccess: CallbackId, onError: CallbackId) returns (hit: Option<Payload>, issued: bool)
      requires Valid()
      modifies this
      ensures Valid()
      ensures cache == old(cache)
      ensures old(CachedData(id)).Results? ==>
                hit == Some(old(CachedData(id))) && !issued
                && queue == old(queue) && inFlight == old(inFlight) && requests == old(requests)
      ensures old(CachedData(id)).Missing? ==>
                hit.None? && queue == old(queue)[id := old(Waiting(id)) + [onSuccess]]
                && (issued <==> old(Waiting(id)) == [])
      ensures issued ==> id !in old(inFlight) && inFlight == old(inFlight)[id := onError] && requests == old(requests) + [id]
      ensures !issued ==> inFlight == old(inFlight) && requests == old(requests)
    {
      var cached := CachedData(id);
      if cached.Results? {
        return Some(cached), false;
      }
      hit := None;
      if id !in queue {
        queue := queue[id := []];
      }
      queue := queue[id := queue[id] + [onSuccess]];
      issued := |queue[id]| == 1;
      if issued {
        inFlight := inFlight[id := onError];
        requests := requests + [id];
      }
    }

    /** The success handler of the request for `id`: every queued callback,
        in the order it was queued, receives the same `data.results`, which
        is cached; then the queue is emptied. */
    method Respond(id: string, payload: Payload) returns (delivered: seq<(CallbackId, Payload)>)
      requires Valid() && id in inFlight
      modifies this
      ensures Valid()
      ensures |delivered| == |old(queue[id])|
      ensures forall k :: 0 <= k < |delivered| ==> delivered[k] == (old(queue[id])[k], payload)
      ensures cache == old(cache)[id := payload]
      ensures queue == old(queue)[id := []]
      ensures inFlight == old(inFlight) - {id}
      ensures requests == old(requests)
    {
      var waiting := queue[id];
      delivered := [];
      var i := 0;
      while i < |waiting|
        invariant 0 <= i <= |waiting|
        invariant |delivered| == i
        invariant forall k :: 0 <= k < i ==> delivered[k] == (waiting[k], payload)
        invariant cache == if i == 0 then old(cache) else old(cache)[id := payload]
        invariant queue == old(queue) && inFlight == old(inFlight) && requests == old(requests)
      {
        cache := cache[id := payload];
        delivered := delivered + [(waiting[i], payload)];
        i := i + 1;
      }
      queue := queue[id := []];
      inFlight := inFlight - {id};
    }

    /** The error handler of the request for `id`: only the error callback
        of the lookup that issued it runs, and the queue is left as it is. */
    method Fail(id: string) returns (onError: CallbackId)
      requires Valid() && id in inFlight
      modifies this
      ensures Valid()
      ensures onError == old(inFlight[id])
      ensures cache == old(cache) && queue == old(queue) && requests == old(requests)
      ensures inFlight == old(inFlight) - {id}
    {
      onError := inFlight[id];
      inFlight := inFlight - {id};
    }
  }

  /** `getGiantBombVideo`: a cache without a queue, so every lookup that
      misses issues its own request. */
  class VideoCache {
    /** `giantBombVideoCache`. */
    var cache: map<string, Payload>
    /** Every request issued, with the success callback it will call. */
    var requests: seq<(string, CallbackId)>

    constructor ()
      ensures cache == map[] && requests == []
    {
      cache := map[];
      requests := [];
    }

    /** `getCachedVideo(id)`. */
    function CachedVideo(id: string): Payload
      reads this
    {
      CachedEntry(cache, id)
    }

    /** `getGiantBombVideo(id, onSuccess, onError)`. */
    method Get(id: string, onSuccess: CallbackId) returns (hit: Option<Payload>)
      modifies this
      ensures cache == old(cache)
      ensures old(CachedVideo(id)).Results? ==> hit == Some(old(CachedVideo(id))) && requests == old(requests)
      ensures old(CachedVideo(id)).Missing? ==> hit.None? && requests == old(requests) + [(id, onSuccess)]
    {
      var cached := CachedVideo(id);
      if cached.Results? {
        return Some(cached);
      }
      hit := None;
      requests := requests + [(id, onSuccess)];
    }

    /** The success handler of one video request: cache, then call back. */
    method Respond(id: string, onSuccess: CallbackId, payload: Payload) returns (delivered: (CallbackId, Payload))
      modifies this
      ensures delivered == (onSuccess, payload)
      ensures cache == old(cache)[id := payload] && requests == old(requests)
    {
      cache := cache[id := payload];
      delivered := (onSuccess, payload);
    }
  }

  // -------------------------------------------------------------------------
  // Scenarios

  /** Any number of lookups of one id before its response arrives issue one
      request, and the response reaches every callback in the order they
      asked; a lookup after that is a cache hit. */
  method ConcurrentLookups(id: string, n: nat, body: string)
    returns (requestCount: nat, delivered: seq<(CallbackId, Payload)>, later: Option<Payload>)
    requires n >= 1
    ensures requestCount == 1
    ensures |delivered| == n && forall k :: 0 <= k < n ==> delivered[k] == (k + 1, Results(body))
    ensures later == Some(Results(body))
  {
    var c := new QueuedCache();
    var k := 0;
    while k < n
      invariant 0 <= k <= n
      invariant c.Valid() && c.cache == map[]
      invariant |c.Waiting(id)| == k && forall j :: 0 <= j < k ==> c.Waiting(id)[j] == j + 1
      invariant k == 0 ==> c.inFlight == map[] && c.requests == []
      invariant k > 0 ==> id in c.inFlight && c.requests == [id]
    {
      var hit, issued := c.Get(id, k + 1, 0);
      k := k + 1;
    }
    delivered := c.Respond(id, Results(body));
    requestCount := |c.requests|;
    var issued;
    later, issued := c.Get(id, n + 1, 0);
  }

  /** After a failed request only the first caller hears about it; a later
      lookup of the id queues behind the dead request and issues none. */
  method LookupAfterFailure(id: string) returns (errorCallback: CallbackId, issuedAgain: bool, waiting: nat)
    ensures errorCallback == 100
    ensures !issuedAgain && waiting == 3
  {
    var c := new QueuedCache();
    var hit, issued := c.Get(id, 1, 100);
    hit, issued := c.Get(id, 2, 200);
    errorCallback := c.Fail(id);
    hit, issuedAgain := c.Get(id, 3, 300);
    waiting := |c.queue[id]|;
  }

  /** Two lookups of one video before its response arrives issue two
      requests. */
  method TwoConcurrentVideoLookups(id: string) returns (requestCount: nat)
    ensures requestCount == 2
  {
    var c := new VideoCache();
    var hit := c.Get(id, 1);
    hit := c.Get(id, 2);
    requestCount := |c.requests|;
  }
}

=== FILE: item_linker.dfy ===
/** The item linker: given an item found on one search provider, it searches
    the other provider and picks the result most similar to the item. A
    GiantBomb item is looked up on Amazon (by its raw name, restricted to the
    platform's browse node, then once more without the restriction); an
    Amazon item is looked up on GiantBomb (by its standardised name). The
    same "keep the best score" loop picks Wikipedia pages. */
module ItemLinker {
  import opened JsValues
  import opened Similarity
  import GiantBomb

  /** `Utilities.SEARCH_PROVIDERS`: the provider the item came from. */
  datatype Provider = AmazonProvider | GiantBombProvider

  /** The search the linker starts: `GiantBomb.searchGiantBomb(keywords)` or
      `Amazon.searchAmazon(keywords, browseNode)`. */
  datatype SearchRequest = GiantBombSearch(keywords: string) | AmazonSearch(keywords: string, browseNode: int)

  /** The item being linked: its raw name and what the score reads. */
  datatype SourceItem = SourceItem(name: string, profile: Profile)

  /** What a match function ends with: `onSuccess` with the chosen result
      (and its position), `onError`, a second search, or no callback at all. */
  datatype Outcome<T> = Found(index: nat, item: T) | Failed | SearchAgain(request: SearchRequest) | Silent

  /** An Amazon result as `Amazon.parseAmazonResultItem` returns it: marked
      as filtered, or a candidate for the score. */
  datatype AmazonResult = Filtered | Listed(candidate: Candidate)

  // -------------------------------------------------------------------------
  // findItemOnAlternateProvider

  /** The search `findItemOnAlternateProvider` starts: an Amazon item is
      searched on GiantBomb by its standard name; a GiantBomb item on Amazon
      by its raw name, within the Amazon browse node of its platform, or in
      all of Amazon (node 0) when the platform is 'n/a'. `amazonNode` stands
      for `Utilities.getStandardPlatform(p).amazon`. */
  function FindItemOnAlternateProvider(item: SourceItem, provider: Provider, amazonNode: string -> int): (req: SearchRequest)
    ensures provider == AmazonProvider <==> req.GiantBombSearch?
    ensures req.GiantBombSearch? ==> req.keywords == item.profile.standardName
    ensures req.AmazonSearch? ==> req.keywords == item.name
    ensures req.AmazonSearch? && item.profile.platform == "n/a" ==> req.browseNode == 0
    ensures req.AmazonSearch? && item.profile.platform != "n/a" ==> req.browseNode == amazonNode(item.profile.platform)
  {
    match provider
    case AmazonProvider => GiantBombSearch(item.profile.standardName)
    case GiantBombProvider =>
      AmazonSearch(item.name, if item.profile.platform != "n/a" then amazonNode(item.profile.platform) else 0)
  }

  // -------------------------------------------------------------------------
  // findGiantbombMatch

  /** A parsed GiantBomb result as the score sees it: it always has a
      release date, and its platform is 'n/a'. */
  function GiantBombCandidate(d: GiantBomb.DetailItem): Candidate
  {
    Candidate(d.name, Some(d.releaseDate), Some(d.platform))
  }

  /** The score of every GiantBomb result; none is skipped. */
  function GiantBombScores(env: Env, source: Profile, calendar: string -> string, results: seq<GiantBomb.ResultItem>)
    : (scores: seq<Option<real>>)
    ensures |scores| == |results|
    ensures forall k :: 0 <= k < |results| ==>
              scores[k] == Some(SimilarityScore(env, source, GiantBombCandidate(GiantBomb.ParseResultItem(results[k], calendar))))
  {
    seq(|results|, k requires 0 <= k < |results| =>
      Some(SimilarityScore(env, source, GiantBombCandidate(GiantBomb.ParseResultItem(results[k], calendar)))))
  }

  /** `findGiantbombMatch(data, sourceItem, ...)`: `onError` exactly when there
      are no results; otherwise `onSuccess` with the parsed result the seeded
      scan picks. */
  method FindGiantbombMatch(env: Env, source: Profile, calendar: string -> string, results: seq<GiantBomb.ResultItem>)
    returns (outcome: Outcome<GiantBomb.DetailItem>)
    ensures |results| == 0 <==> outcome == Failed
    ensures |results| != 0 ==>
              outcome.Found? && outcome.index < |results|
              && IsSeededPick(GiantBombScores(env, source, calendar, results), |results|, outcome.index)
              && outcome.item == GiantBomb.ParseResultItem(results[outcome.index], calendar)
  {
    ghost var scores := GiantBombScores(env, source, calendar, results);
    var best: Option<nat> := None;
    var bestMatch: Option<GiantBomb.DetailItem> := None;
    var bestScore := Floor;
    ScanStart(scores, true);
    var i := 0;
    while i < |results|
      invariant 0 <= i <= |results|
      invariant ScanState(scores, i, true, best, bestScore)
      invariant best.Some? <==> bestMatch.Some?
      invariant best.Some? ==> best.value < |results| && bestMatch.value == GiantBomb.ParseResultItem(results[best.value], calendar)
    {
      ghost var best0, bestScore0 := best, bestScore;
      if i > 0 {
        assert scores[0].Some?;
      }
      var searchItem := GiantBomb.ParseResultItem(results[i], calendar);
      if i == 0 {
        best, bestMatch := Some(i), Some(searchItem);
      }
      var score := SimilarityScore(env, source, GiantBombCandidate(searchItem));
      if score > bestScore {
        best, bestMatch, bestScore := Some(i), Some(searchItem), score;
      }
      ScanStep(scores, i, true, best0, bestScore0, best, bestScore);
      i := i + 1;
    }
    if |results| != 0 {
      assert scores[0].Some?;
      outcome := Found(best.value, bestMatch.value);
    } else {
      outcome := Failed;
    }
  }

  /** A result with the item's name, released the same day, on a platform
      that 'n/a' standardises to: it scores the maximum 220. */
  predicate PerfectResult(env: Env, source: Profile, d: GiantBomb.DetailItem)
  {
    d.name == source.standardName
    && DayDifference(env, source.releaseDate, d.releaseDate) == Some(0)
    && source.platform == env.standardPlatform(d.platform)
  }

  /** The first perfect GiantBomb result is the one picked. */
  lemma PerfectGiantBombResultPicked(env: Env, source: Profile, calendar: string -> string,
                                     results: seq<GiantBomb.ResultItem>, i: nat)
    requires i < |results| && PerfectResult(env, source, GiantBomb.ParseResultItem(results[i], calendar))
    requires forall k :: 0 <= k < i ==> !PerfectResult(env, source, GiantBomb.ParseResultItem(results[k], calendar))
    ensures IsSeededPick(GiantBombScores(env, source, calendar, results), |results|, i)
  {
    var scores := GiantBombScores(env, source, calendar, results);
    forall k | 0 <= k < |results|
      ensures scores[k].value <= 220.0
      ensures k < i ==> scores[k].value < 220.0
      ensures k == i ==> scores[k] == Some(220.0)
    {
      ScoreAtMost220(env, source, GiantBombCandidate(GiantBomb.ParseResultItem(results[k], calendar)));
    }
    FirstReachingBoundIsPicked(scores, 220.0, i);
  }

  // -------------------------------------------------------------------------
  // findWikipediaMatch

  /** The score of every Wikipedia page title: name only. */
  function WikipediaScores(env: Env, source: Profile, titles: seq<string>): (scores: seq<Option<real>>)
    ensures |scores| == |titles|
    ensures forall k :: 0 <= k < |titles| ==> scores[k] == Some(SimilarityScore(env, source, Candidate(titles[k], None, None)))
  {
    seq(|titles|, k requires 0 <= k < |titles| => Some(SimilarityScore(env, source, Candidate(titles[k], None, None))))
  }

  /** `findWikipediaMatch(data, sourceItem, onSuccess)`: no callback when there
      are no titles; otherwise `onSuccess` with the title the seeded scan
      picks. */
  method FindWikipediaMatch(env: Env, source: Profile, titles: seq<string>) returns (outcome: Outcome<string>)
    ensures |titles| == 0 <==> outcome == Silent
    ensures |titles| != 0 ==>
              outcome.Found? && outcome.index < |titles|
              && IsSeededPick(WikipediaScores(env, source, titles), |titles|, outcome.index)
              && outcome.item == titles[outcome.index]
  {
    ghost var scores := WikipediaScores(env, source, titles);
    var best: Option<nat> := None;
    var bestScore := Floor;
    ScanStart(scores, true);
    var i := 0;
    while i < |titles|
      invariant 0 <= i <= |titles|
      invariant ScanState(scores, i, true, best, bestScore)
      invariant best.Some? ==> best.value < |titles|
    {
      ghost var best0, bestScore0 := best, bestScore;
      if i > 0 {
        assert scores[0].Some?;
      }
      if i == 0 {
        best := Some(i);
      }
      var score := SimilarityScore(env, source, Candidate(titles[i], None, None));
      if score > bestScore {
        best, bestScore := Some(i), score;
      }
      ScanStep(scores, i, true, best0, bestScore0, best, bestScore);
      i := i + 1;
    }
    if |titles| != 0 {
      assert scores[0].Some?;
      outcome := Found(best.value, titles[best.value]);
    } else {
      outcome := Silent;
    }
  }

  /** A title equal to the item's standard name scores 100, which no title
      exceeds, so the first such title is the one picked. */
  lemma ExactTitlePicked(env: Env, source: Profile, titles: seq<string>, i: nat)
    requires i < |titles| && titles[i] == source.standardName
    requires forall k :: 0 <= k < i ==> titles[k] != source.standardName
    ensures IsSeededPick(WikipediaScores(env, source, titles), |titles|, i)
  {
    var scores := WikipediaScores(env, source, titles);
    forall k | 0 <= k < |titles|
      ensures scores[k].value <= 100.0
      ensures k < i ==> scores[k].value < 100.0
      ensures k == i ==> scores[k] == Some(100.0)
    {
      NameOnlyScore(env, source, Candidate(titles[k], None, None));
    }
    FirstReachingBoundIsPicked(scores, 100.0, i);
  }

  // -------------------------------------------------------------------------
  // findAmazonMatch

  /** The score of every Amazon result; filtered results are skipped. */
  function AmazonScores(env: Env, source: Profile, items: seq<AmazonResult>): (scores: seq<Option<real>>)
    ensures |scores| == |items|
    ensures forall k :: 0 <= k < |items| ==>
              scores[k] == if items[k].Filtered? then None else Some(SimilarityScore(env, source, items[k].candidate))
  {
    seq(|items|, k requires 0 <= k < |items| =>
      if items[k].Filtered? then None else Some(SimilarityScore(env, source, items[k].candidate)))
  }

  /** `findAmazonMatch(data, sourceItem, ..., lastSearch)`: `onSuccess` with the
      unfiltered result the seeded scan picks when there is one; otherwise a
      second search by the raw name in all of Amazon, unless this already was
      the second search, in which case `onError`. */
  method FindAmazonMatch(env: Env, source: SourceItem, items: seq<AmazonResult>, lastSearch: bool)
    returns (outcome: Outcome<Candidate>)
    ensures var scores := AmazonScores(env, source.profile, items);
            if ConsideredIn(scores, |items|) then
              outcome.Found? && outcome.index < |items| && IsSeededPick(scores, |items|, outcome.index)
              && items[outcome.index] == Listed(outcome.item)
            else if lastSearch then outcome == Failed
            else outcome == SearchAgain(AmazonSearch(source.name, 0))
  {
    ghost var scores := AmazonScores(env, source.profile, items);
    var count := 0;
    var best: Option<nat> := None;
    var bestScore := Floor;
    ScanStart(scores, true);
    var i := 0;
    while i < |items|
      invariant 0 <= i <= |items|
      invariant ScanState(scores, i, true, best, bestScore)
      invariant count == 0 <==> !ConsideredIn(scores, i)
      invariant best.Some? ==> best.value < |items| && items[best.value].Listed?
    {
      ghost var best0, bestScore0 := best, bestScore;
      ConsideredInStep(scores, i);
      var searchItem := items[i];
      if searchItem.Listed? {
        if count == 0 {
          best := Some(i);
        }
        count := count + 1;
        var score := SimilarityScore(env, source.profile, searchItem.candidate);
        if score > bestScore {
          best, bestScore := Some(i), score;
        }
      }
      ScanStep(scores, i, true, best0, bestScore0, best, bestScore);
      i := i + 1;
    }
    if best.Some? {
      outcome := Found(best.value, items[best.value].candidate);
    } else if !lastSearch {
      outcome := SearchAgain(AmazonSearch(source.name, 0));
    } else {
      outcome := Failed;
    }
  }

  /** Linking a GiantBomb item to Amazon, end to end: the platform search,
      and when none of its results survives the filter, one more search by
      the raw name in all of Amazon. `first` and `second` are the parsed
      results of the two searches. There are never more than two searches,
      `onError` comes only after the second, and the pick comes from the
      search that returned an unfiltered result. */
  method LinkGiantBombItemToAmazon(env: Env, item: SourceItem, amazonNode: string -> int,
                                   first: seq<AmazonResult>, second: seq<AmazonResult>)
    returns (requests: seq<SearchRequest>, outcome: Outcome<Candidate>)
    ensures |requests| == 1 || |requests| == 2
    ensures requests[0] == FindItemOnAlternateProvider(item, GiantBombProvider, amazonNode)
    ensures var firstScores := AmazonScores(env, item.profile, first);
            (|requests| == 2 <==> !ConsideredIn(firstScores, |first|))
            && (|requests| == 1 ==> outcome.Found? && outcome.index < |first|
                                    && IsSeededPick(firstScores, |first|, outcome.index)
                                    && first[outcome.index] == Listed(outcome.item))
    ensures |requests| == 2 ==> requests[1] == AmazonSearch(item.name, 0)
    ensures var secondScores := AmazonScores(env, item.profile, second);
            |requests| == 2 ==>
              if ConsideredIn(secondScores, |second|) then
                outcome.Found? && outcome.index < |second| && IsSeededPick(secondScores, |second|, outcome.index)
                && second[outcome.index] == Listed(outcome.item)
              else outcome == Failed
  {
    requests := [FindItemOnAlternateProvider(item, GiantBombProvider, amazonNode)];
    outcome := FindAmazonMatch(env, item, first, false);
    if outcome.SearchAgain? {
      requests := requests + [outcome.request];
      outcome := FindAmazonMatch(env, item, second, true);
    }
  }
}

=== FILE: item_view.dfy ===
/** The decisions the item list view makes: which store shows the lower
    price, how the quick-attribute buttons toggle an item's attributes, how a
    list is cut into chunks for rendering and which chunks are dropped, when
    an addition to a list re-renders it, what the preliminary metascore text
    is, and the two sort comparators. */
module ItemView {
  import opened JsValues
  import opened Items
  import opened Metascore

  // -------------------------------------------------------------------------
  // getLowestPrice

  /** The Amazon offers of an item; each price is undefined (None) or what
      `parseFloat` made of it. */
  datatype Offers = Offers(buyNowPrice: Option<JsNumber>, lowestNewPrice: Option<JsNumber>)

  datatype Store = Amazon | Steam

  /** The default every missing price takes. */
  const MissingPrice: real := 9999.0

  function PriceOr9999(p: Option<JsNumber>): JsNumber
  {
    match p
    case None => Num(MissingPrice)
    case Some(x) => x
  }

  /** `getLowestPrice(item)`: Steam exactly when the Steam price is a number
      below the buy-now price (9999 when missing) and, unless the lowest new
      price is not below the buy-now price, below the lowest new price too. */
  function GetLowestPrice(offers: Option<Offers>, steamPrice: Option<JsNumber>): (s: Store)
    ensures var steam := PriceOr9999(steamPrice);
            var buyNow := if offers.Some? then PriceOr9999(offers.value.buyNowPrice) else Num(MissingPrice);
            var lowestNew := if offers.Some? then PriceOr9999(offers.value.lowestNewPrice) else Num(MissingPrice);
            s == Steam <==>
              steam.Num? && buyNow.Num? && steam.value < buyNow.value
              && (Less(lowestNew, buyNow) ==> steam.value < lowestNew.value)
  {
    var buyNowPrice := if offers.Some? && offers.value.buyNowPrice.Some? then offers.value.buyNowPrice.value else Num(MissingPrice);
    var lowestNewPrice := if offers.Some? && offers.value.lowestNewPrice.Some? then offers.value.lowestNewPrice.value else Num(MissingPrice);
    var steam := if steamPrice.Some? then steamPrice.value else Num(MissingPrice);
    var lowestAmazonPrice := if Less(lowestNewPrice, buyNowPrice) then lowestNewPrice else buyNowPrice;
    if Less(steam, lowestAmazonPrice) then Steam else Amazon
  }

  /** With no prices at all, or a Steam price equal to the lower Amazon
      price, Amazon is shown. */
  lemma NoDataOrTieMeansAmazon(buyNow: real, lowestNew: real)
    ensures GetLowestPrice(None, None) == Amazon
    ensures var low := if lowestNew < buyNow then lowestNew else buyNow;
            GetLowestPrice(Some(Offers(Some(Num(buyNow)), Some(Num(lowestNew)))), Some(Num(low))) == Amazon
  {
  }

  /** A Steam price or buy-now price that is not a number (`parseFloat('')`,
      as for an offer without a price) always leaves Amazon. */
  lemma NaNMeansAmazon(offers: Option<Offers>, lowestNew: Option<JsNumber>, steamPrice: Option<JsNumber>)
    ensures GetLowestPrice(offers, Some(NaN)) == Amazon
    ensures GetLowestPrice(Some(Offers(Some(NaN), lowestNew)), steamPrice) == Amazon
  {
  }

  // -------------------------------------------------------------------------
  // setQuickAttribute

  /** One click on a two-state button: `on` unless the attribute already is
      `on`, in which case `off`. */
  function Toggled(current: string, on: string, off: string): (r: string)
    ensures r == on || r == off
    ensures on != off ==> r != current
  {
    if current == on then off else on
  }

  /** The play status buttons 0, 1 and 2 turn the status to '1', '2' and
      '3'. */
  function PlayTarget(attributeID: int): string
    requires 0 <= attributeID <= 2
  {
    if attributeID == 0 then "1" else if attributeID == 1 then "2" else "3"
  }

  const PlayStatuses: set<string> := {"0", "1", "2", "3"}

  /** A second click undoes the first when the attribute was on or off to begin with;
      otherwise two clicks leave it off. */
  lemma ToggleTwice(current: string, on: string, off: string)
    requires on != off
    ensures Toggled(Toggled(current, on, off), on, off) == if current == on then on else off
  {
  }

  /** The quick-attribute state of the list view. */
  class ListView {
    /** The tag whose list is on screen; '0' is the list of all items. */
    var currentViewTagID: string
    var queueDisplayRefresh: bool
    /** The items handed to `ItemData.updateUserItem`, in order. */
    var updatesSent: seq<Item>
    /** The items appended to the result list by `renderChunk`, in order. */
    var displayed: seq<Item>

    constructor ()
      ensures currentViewTagID == "0" && !queueDisplayRefresh && updatesSent == [] && displayed == []
    {
      currentViewTagID := "0";
      queueDisplayRefresh := false;
      updatesSent := [];
      displayed := [];
    }

    /** `setQuickAttribute($button, id, attributeID)`: nothing for a view
        user; otherwise the display refresh is queued (even for an unknown
        attribute), buttons 0 to 2 toggle the play status between their
        value and '0', button 3 the rating between '10' and '0', button 4 the
        owned status between '1' and '0', and the item is sent to be
        saved. */
    method SetQuickAttribute(item: Item, attributeID: int, isViewUser: bool)
      modifies this, item
      ensures currentViewTagID == old(currentViewTagID) && displayed == old(displayed)
      ensures isViewUser ==>
                queueDisplayRefresh == old(queueDisplayRefresh) && updatesSent == old(updatesSent)
                && item.playStatus == old(item.playStatus) && item.userRating == old(item.userRating)
                && item.gameStatus == old(item.gameStatus)
      ensures !isViewUser ==>
                queueDisplayRefresh && updatesSent == old(updatesSent) + [item]
                && item.playStatus == (if 0 <= attributeID <= 2 then Toggled(old(item.playStatus), PlayTarget(attributeID), "0")
                                       else old(item.playStatus))
                && item.userRating == (if attributeID == 3 then Toggled(old(item.userRating), "10", "0") else old(item.userRating))
                && item.gameStatus == (if attributeID == 4 then Toggled(old(item.gameStatus), "1", "0") else old(item.gameStatus))
      ensures !isViewUser && 0 <= attributeID <= 2 ==> item.playStatus in PlayStatuses
      ensures old(item.playStatus) in PlayStatuses ==> item.playStatus in PlayStatuses
      ensures item.metascore == old(item.metascore) && item.metascorePage == old(item.metascorePage)
      ensures item.displayMetascore == old(item.displayMetascore)
    {
      if isViewUser {
        return;
      }
      queueDisplayRefresh := true;
      if attributeID == 0 {
        if item.playStatus == "1" {
          item.playStatus := "0";
        } else {
          item.playStatus := "1";
        }
      } else if attributeID == 1 {
        if item.playStatus == "2" {
          item.playStatus := "0";
        } else {
          item.playStatus := "2";
        }
      } else if attributeID == 2 {
        if item.playStatus == "3" {
          item.playStatus := "0";
        } else {
          item.playStatus := "3";
        }
      } else if attributeID == 3 {
        if item.userRating == "10" {
          item.userRating := "0";
        } else {
          item.userRating := "10";
        }
      } else if attributeID == 4 {
        if item.gameStatus == "1" {
          item.gameStatus := "0";
        } else {
          item.gameStatus := "1";
        }
      }
      updatesSent := updatesSent + [item];
    }

    /** `renderChunk(itemChunk, renderViewTagID)`: the chunk is appended only
        if the list it was cut from is still the one on screen. */
    method RenderChunk(chunk: seq<Item>, renderViewTagID: string)
      modifies this
      ensures displayed == if renderViewTagID == currentViewTagID then old(displayed) + chunk else old(displayed)
      ensures currentViewTagID == old(currentViewTagID) && queueDisplayRefresh == old(queueDisplayRefresh)
      ensures updatesSent == old(updatesSent)
    {
      if renderViewTagID == currentViewTagID {
        displayed := displayed + chunk;
      }
    }

    /** The delayed `renderChunk` calls of one `render`, in the order they are
        scheduled. Each full chunk carries the list id captured when it was
        cut, so it appears only if that list is still on screen; the
        remainder is checked against the list on screen when it fires, so it
        always appears. If the list rendered is still on screen, every item
        appears exactly once, in order. */
    method DeliverChunks(full: seq<seq<Item>>, remainder: seq<Item>, renderViewTagID: string)
      modifies this
      ensures displayed == old(displayed) + (if renderViewTagID == currentViewTagID then Flatten(full) else []) + remainder
      ensures currentViewTagID == old(currentViewTagID) && queueDisplayRefresh == old(queueDisplayRefresh)
      ensures updatesSent == old(updatesSent)
    {
      var i := 0;
      while i < |full|
        invariant 0 <= i <= |full|
        invariant currentViewTagID == old(currentViewTagID) && queueDisplayRefresh == old(queueDisplayRefresh)
        invariant updatesSent == old(updatesSent)
        invariant displayed == old(displayed) + if renderViewTagID == currentViewTagID then Flatten(full[..i]) else []
      {
        FlattenAppend(full[..i], full[i]);
        assert full[..i + 1] == full[..i] + [full[i]];
        RenderChunk(full[i], renderViewTagID);
        i := i + 1;
      }
      assert full[..|full|] == full;
      RenderChunk(remainder, currentViewTagID);
    }
  }

  // -------------------------------------------------------------------------
  // render

  const BlockSize: nat := 25

  function Flatten<T>(chunks: seq<seq<T>>): seq<T>
  {
    if chunks == [] then [] else Flatten(chunks[..|chunks| - 1]) + chunks[|chunks| - 1]
  }

  lemma FlattenAppend<T>(chunks: seq<seq<T>>, c: seq<T>)
    ensures Flatten(chunks + [c]) == Flatten(chunks) + c
  {
    assert (chunks + [c])[..|chunks|] == chunks;
  }

  /** `render(items)` cuts the items into the chunks it schedules: a chunk
      each time the count reaches a multiple of 25, then the remainder, which
      is scheduled even when it is empty. In order, the chunks hold every
      item exactly once. */
  method Render<T>(items: seq<T>) returns (chunks: seq<seq<T>>)
    ensures Flatten(chunks) == items
    ensures |chunks| == |items| / BlockSize + 1
    ensures forall k :: 0 <= k < |chunks| - 1 ==> |chunks[k]| == BlockSize
    ensures |chunks[|chunks| - 1]| == |items| % BlockSize
  {
    var length := 0;
    var itemChunk: seq<T> := [];
    chunks := [];
    while length < |items|
      invariant 0 <= length <= |items|
      invariant Flatten(chunks) + itemChunk == items[..length]
      invariant |chunks| == length / BlockSize && |itemChunk| == length % BlockSize
      invariant forall k :: 0 <= k < |chunks| ==> |chunks[k]| == BlockSize
    {
      itemChunk := itemChunk + [items[length]];
      length := length + 1;
      if length % BlockSize == 0 {
        FlattenAppend(chunks, itemChunk);
        chunks := chunks + [itemChunk];
        itemChunk := [];
      }
    }
    FlattenAppend(chunks, itemChunk);
    chunks := chunks + [itemChunk];
    assert items[..|items|] == items;
  }

  // -------------------------------------------------------------------------
  // updateListAdditions

  /** A tag id as the save response lists it: text or a number. */
  datatype TagId = TagText(text: string) | TagNumber(n: nat)

  /** `tagID == currentViewTagID` with `==`: a number equals a string whose
      numeric value it is. */
  function LooseEquals(tag: TagId, current: string): (b: bool)
    ensures tag.TagText? ==> (b <==> tag.text == current)
    ensures tag.TagNumber? && current == NatToString(tag.n) ==> b
    ensures tag.TagNumber? && b ==> StringToNumber(current) == StringToNumber(NatToString(tag.n))
  {
    match tag
    case TagText(s) => s == current
    case TagNumber(n) => StringToNumberOfNat(n); StringToNumber(current) == Some(n)
  }

  /** `updateListAdditions(data, addedItems)`: whether the list on screen is
      rendered again after an item was added to lists: for a tag list, when
      one of the tags added matches it loosely; for the list of all items,
      when the item already belonged to a list (`tagCount` is what
      `ItemData.getDirectoryItemByItemID` reports). */
  method UpdateListAdditions(currentViewTagID: string, tagIDsAdded: seq<TagId>, tagCount: int) returns (renderCurrentList: bool)
    ensures currentViewTagID != "0" ==> (renderCurrentList <==> exists i :: 0 <= i < |tagIDsAdded| && LooseEquals(tagIDsAdded[i], currentViewTagID))
    ensures currentViewTagID == "0" ==> (renderCurrentList <==> tagCount >= 1)
  {
    renderCurrentList := false;
    if currentViewTagID != "0" {
      var i := 0;
      while i < |tagIDsAdded|
        invariant 0 <= i <= |tagIDsAdded|
        invariant renderCurrentList <==> exists k :: 0 <= k < i && LooseEquals(tagIDsAdded[k], currentViewTagID)
      {
        if LooseEquals(tagIDsAdded[i], currentViewTagID) {
          renderCurrentList := true;
        }
        i := i + 1;
      }
    } else if tagCount >= 1 {
      renderCurrentList := true;
    }
  }

  /** The number 7 equals the tag '7' loosely, and the number 0 equals an
      empty tag id. */
  lemma LooseEqualsExamples()
    ensures LooseEquals(TagNumber(7), "7")
    ensures LooseEquals(TagNumber(0), "")
    ensures !LooseEquals(TagText("07"), "7") && LooseEquals(TagNumber(7), "07")
  {
    assert StringToNumber("7") == Some(7) by { StringToNumberOfNat(7); }
    assert AllDigits("07");
    assert DigitsValue("07") == DigitsValue("0") * 10 + 7;
  }

  // -------------------------------------------------------------------------
  // loadPreliminaryMetascore

  /** `loadPreliminaryMetascore(item)`: 'n/a' for the "no score" marker -1,
      the metascore itself otherwise. */
  method LoadPreliminaryMetascore(item: Item)
    modifies item
    ensures item.displayMetascore == if old(item.metascore) == Number(-1) then Text("n/a") else old(item.metascore)
    ensures item.metascore == old(item.metascore) && item.metascorePage == old(item.metascorePage)
    ensures item.playStatus == old(item.playStatus) && item.userRating == old(item.userRating)
    ensures item.gameStatus == old(item.gameStatus)
  {
    if item.metascore == Number(-1) {
      item.displayMetascore := Text("n/a");
    } else {
      item.displayMetascore := item.metascore;
    }
  }

  /** For every score the metascore lookup writes, except scraped text that
      reads as a negative number, the preliminary text is the text the score
      display shows, and it is 'n/a' exactly when the search found no match
      or a match without a score. */
  lemma PreliminaryAgreesWithDisplay(m: Option<SearchResult>)
    requires m.Some? ==> NegativeMagnitude(m.value.score).None?
    ensures var v := ScoreOfMatch(m).metascore;
            (if v == Number(-1) then Text("n/a") else v) == DisplayScore(v).0
    ensures var v := ScoreOfMatch(m).metascore;
            (if v == Number(-1) then Text("n/a") else v) == Text("n/a") <==> m.None? || m.value.score == "" || m.value.score == "n/a"
  {
  }

  /** The excluded case: scraped text '-3' is shown as it is before the
      display step, which then shows 'n/a' because the score is below 0. */
  lemma NegativeScoreTextDisagrees(r: SearchResult)
    requires r.score == "-3"
    ensures ScoreOfMatch(Some(r)).metascore == Text("-3")
    ensures DisplayScore(Text("-3")).0 == Text("n/a")
  {
    assert Trim("-3") == "-3";
    assert AllDigits("3") && DigitsValue("3") == 3;
    assert NegativeMagnitude("-3") == Some(3);
  }

  // -------------------------------------------------------------------------
  // Sort comparators

  /** `metascoreSort`: 1 when the first score is below the second, -1
      otherwise; never 0. */
  function MetascoreSort(score1: JsNumber, score2: JsNumber): (r: int)
    ensures r == 1 || r == -1
    ensures r == 1 <==> Less(score1, score2)
  {
    if Less(score1, score2) then 1 else -1
  }

  /** `priceSort`: -1 when the first price is below the second, 1 otherwise;
      never 0. A missing price element counts as 0. */
  function PriceSort(price1: Option<JsNumber>, price2: Option<JsNumber>): (r: int)
    ensures r == 1 || r == -1
    ensures r == -1 <==> Less(if price1.Some? then price1.value else Num(0.0), if price2.Some? then price2.value else Num(0.0))
  {
    var p1 := if price1.Some? then price1.value else Num(0.0);
    var p2 := if price2.Some? then price2.value else Num(0.0);
    if Less(p1, p2) then -1 else 1
  }

  /** Distinct numeric scores are ordered consistently (highest first), but
      equal scores, and any NaN, compare as "first after second" both ways. */
  lemma MetascoreSortOrder(a: real, b: real)
    ensures a != b ==> MetascoreSort(Num(a), Num(b)) == -MetascoreSort(Num(b), Num(a))
    ensures MetascoreSort(Num(a), Num(a)) == -1
    ensures MetascoreSort(NaN, Num(a)) == -1 && MetascoreSort(Num(a), NaN) == -1
  {
  }

  /** Distinct prices are ordered consistently (lowest first); a missing
      price sorts like the price 0. */
  lemma PriceSortOrder(a: real, b: real)
    ensures a != b ==> PriceSort(Some(Num(a)), Some(Num(b))) == -PriceSort(Some(Num(b)), Some(Num(a)))
    ensures PriceSort(None, Some(Num(a))) == PriceSort(Some(Num(0.0)), Some(Num(a)))
    ensures PriceSort(Some(Num(a)), Some(Num(a))) == 1
  {
  }
}

=== FILE: items.dfy ===
/** The item record the list view and the metascore lookup share: its
    identifiers and matching fields never change; its score and user
    attributes are written in place. */
module Items {
  import opened JsValues
  import opened Similarity

  /** An identifier as the item carries it: text, or a number (the GiantBomb
      parser sets `asin` to the number 0). */
  datatype Id = IdText(text: string) | IdNumber(n: nat)

  /** The property key an identifier becomes when it indexes an object. */
  function PropertyKey(id: Id): string
  {
    match id
    case IdText(s) => s
    case IdNumber(n) => NatToString(n)
  }

  /** A score field: `null`, a number (-1 marks "no score"), or text (the
      score as scraped). */
  datatype ScoreValue = Null | Number(n: int) | Text(s: string)

  /** `Number(v)` for the values a score field holds; None is NaN. */
  function ScoreNumber(v: ScoreValue): (r: JsNumber)
    ensures v.Null? ==> r == Num(0.0)
    ensures v.Number? ==> r == Num(v.n as real)
    ensures v.Text? && StringToNumber(v.s).Some? ==> r == Num(StringToNumber(v.s).value as real)
    ensures v.Text? && NegativeMagnitude(v.s).Some? ==> r == Num(-(NegativeMagnitude(v.s).value as real))
    ensures v.Text? && StringToNumber(v.s).None? && NegativeMagnitude(v.s).None? ==> r == NaN
  {
    match v
    case Null => Num(0.0)
    case Number(n) => Num(n as real)
    case Text(s) =>
      match StringToNumber(s)
      case Some(x) => Num(x as real)
      case None => match NegativeMagnitude(s) case Some(x) => Num(-(x as real)) case None => NaN
  }

  class Item {
    const asin: Id
    const gbombID: Id
    /** The fields the similarity score reads. */
    const profile: Profile
    var metascore: ScoreValue
    var metascorePage: string
    var displayMetascore: ScoreValue
    var playStatus: string
    var userRating: string
    var gameStatus: string

    constructor (asin: Id, gbombID: Id, profile: Profile, metascore: ScoreValue, metascorePage: string,
                 playStatus: string, userRating: string, gameStatus: string)
      ensures this.asin == asin && this.gbombID == gbombID && this.profile == profile
      ensures this.metascore == metascore && this.metascorePage == metascorePage && displayMetascore == Null
      ensures this.playStatus == playStatus && this.userRating == userRating && this.gameStatus == gameStatus
    {
      this.asin := asin;
      this.gbombID := gbombID;
      this.profile := profile;
      this.metascore := metascore;
      this.metascorePage := metascorePage;
      displayMetascore := Null;
      this.playStatus := playStatus;
      this.userRating := userRating;
      this.gameStatus := gameStatus;
    }
  }
}

=== FILE: js_values.dfy ===
/** The few JavaScript value semantics the Gamedex matching core leans on:
    optional fields, numbers that may be NaN, decimal text of numbers,
    the whitespace class `\s` and ASCII lower-casing. */
module JsValues {

  datatype Option<+T> = None | Some(value: T)

  /** A JavaScript number as produced by parseFloat, parseInt or ToNumber:
      NaN, or a finite value. */
  datatype JsNumber = NaN | Num(value: real)

  /** JavaScript `<` on numbers: false as soon as either side is NaN. */
  predicate Less(a: JsNumber, b: JsNumber)
  {
    a.Num? && b.Num? && a.value < b.value
  }

  lemma LessIsStrictOrder(a: JsNumber, b: JsNumber)
    ensures Less(a, b) ==> !Less(b, a)
    ensures !Less(a, a)
    ensures a.NaN? || b.NaN? ==> !Less(a, b) && !Less(b, a)
  {
  }

  // ---------------------------------------------------------------------
  // Characters

  /** The characters JavaScript's `\s` matches. */
  predicate IsSpace(c: char)
  {
    c == ' ' || c == '\t' || c == '\n' || c == '\U{000B}' || c == '\U{000C}' || c == '\r'
    || c == '\U{00A0}' || c == '\U{1680}' || ('\U{2000}' <= c <= '\U{200A}')
    || c == '\U{2028}' || c == '\U{2029}' || c == '\U{202F}' || c == '\U{205F}'
    || c == '\U{3000}' || c == '\U{FEFF}'
  }

  /** The characters JavaScript's `.` does not match (no `s` flag). */
  predicate IsLineTerminator(c: char)
  {
    c == '\n' || c == '\r' || c == '\U{2028}' || c == '\U{2029}'
  }

  predicate IsUpperAscii(c: char)
  {
    'A' <= c <= 'Z'
  }

  /** ASCII lower-casing of one character. */
  function LowerChar(c: char): (r: char)
    ensures !IsUpperAscii(r)
    ensures IsUpperAscii(c) ==> r as int == c as int + 32
    ensures !IsUpperAscii(c) ==> r == c
  {
    if IsUpperAscii(c) then (c as int + 32) as char else c
  }

  /** `toLowerCase`, restricted to ASCII letters. */
  function Lower(s: string): (r: string)
    ensures |r| == |s|
    ensures forall i :: 0 <= i < |s| ==> r[i] == LowerChar(s[i])
  {
    if s == [] then [] else [LowerChar(s[0])] + Lower(s[1..])
  }

  /** A text that lower-cases character by character to `t` is `t` once
      lower-cased. */
  lemma LowerEach(s: string, t: string)
    requires |s| == |t|
    requires forall k :: 0 <= k < |s| ==> t[k] == LowerChar(s[k])
    ensures Lower(s) == t
  {
  }

  /** Case-insensitive equality of two ASCII texts, as a regular expression
      with the `i` flag compares them (no non-ASCII character folds onto an
      ASCII letter under that flag). */
  predicate EqualsIgnoreCase(s: string, t: string)
  {
    Lower(s) == Lower(t)
  }

  // ---------------------------------------------------------------------
  // Decimal text

  predicate IsDigit(c: char)
  {
    '0' <= c <= '9'
  }

  predicate AllDigits(s: string)
  {
    forall i :: 0 <= i < |s| ==> IsDigit(s[i])
  }

  function DigitChar(d: nat): (c: char)
    requires d < 10
    ensures IsDigit(c) && c as int - '0' as int == d
  {
    ('0' as int + d) as char
  }

  /** The value of a string of decimal digits. */
  function DigitsValue(s: string): nat
    requires AllDigits(s)
  {
    if s == [] then 0 else DigitsValue(s[..|s| - 1]) * 10 + (s[|s| - 1] as int - '0' as int)
  }

  /** `String(n)` for a non-negative integer. */
  function NatToString(n: nat): (r: string)
    ensures AllDigits(r) && |r| >= 1
    ensures (|r| == 1) == (n < 10)
  {
    if n < 10 then [DigitChar(n)] else NatToString(n / 10) + [DigitChar(n % 10)]
  }

  /** `String(i)` for any integer. */
  function IntToString(i: int): (r: string)
    ensures i >= 0 ==> r == NatToString(i)
    ensures i < 0 ==> r == "-" + NatToString(-i)
  {
    if i < 0 then "-" + NatToString(-i) else NatToString(i)
  }

  lemma {:induction false} NatToStringRoundTrip(n: nat)
    ensures DigitsValue(NatToString(n)) == n
  {
    var r := NatToString(n);
    if n >= 10 {
      NatToStringRoundTrip(n / 10);
      assert r[..|r| - 1] == NatToString(n / 10);
    }
  }

  /** Leading and trailing `\s` removed, as ToNumber does before reading. */
  function Trim(s: string): (r: string)
    ensures |r| <= |s|
    ensures r != [] ==> !IsSpace(r[0]) && !IsSpace(r[|r| - 1])
    decreases |s|
  {
    if s == [] then []
    else if IsSpace(s[0]) then Trim(s[1..])
    else if IsSpace(s[|s| - 1]) then Trim(s[..|s| - 1])
    else s
  }

  /** ToNumber of a string, for the strings this core meets: blank text is 0,
      decimal digits (between blanks) are their value, anything else is NaN
      (None). Signs, fractions, exponents and hexadecimal are not read. */
  function StringToNumber(s: string): (r: Option<nat>)
    ensures AllDigits(s) ==> r == Some(DigitsValue(s))
  {
    var t := Trim(s);
    assert AllDigits(s) ==> t == s by {
      if AllDigits(s) && s != [] {
        assert !IsSpace(s[0]) && !IsSpace(s[|s| - 1]);
      }
    }
    if AllDigits(t) then Some(DigitsValue(t)) else None
  }

  /** ToNumber of a '-' followed by decimal digits (between blanks): the
      magnitude of the negative number it reads as; None for every other
      string. */
  function NegativeMagnitude(s: string): (r: Option<nat>)
    ensures r.Some? ==> StringToNumber(s).None?
  {
    var t := Trim(s);
    if |t| >= 2 && t[0] == '-' && AllDigits(t[1..]) then Some(DigitsValue(t[1..])) else None
  }

  lemma StringToNumberOfNat(n: nat)
    ensures StringToNumber(NatToString(n)) == Some(n)
  {
    NatToStringRoundTrip(n);
  }
}

=== FILE: metascore.dfy ===
/** The Metacritic score lookup: a score cache shared by Amazon and GiantBomb
    identifiers, the search-term rewriting, the choice of the search result
    that matches the item, the write of its score into the item, and the
    colour class a score is shown with. */
module Metascore {
  import opened JsValues
  import opened Patterns
  import opened Similarity
  import opened Items

  /** A cache entry: `{metascorePage, metascore}`. */
  datatype CachedScore = CachedScore(metascorePage: string, metascore: ScoreValue)

  // -------------------------------------------------------------------------
  // The shared cache

  /** `getCachedScore(asin, gbombID)`: the entry under the asin if there is
      one, else the entry under the GiantBomb id, else nothing. */
  function Lookup(entries: map<string, CachedScore>, asin: Id, gbombID: Id): (r: Option<CachedScore>)
    ensures r.Some? <==> PropertyKey(asin) in entries || PropertyKey(gbombID) in entries
    ensures PropertyKey(asin) in entries ==> r == Some(entries[PropertyKey(asin)])
    ensures PropertyKey(asin) !in entries && PropertyKey(gbombID) in entries ==> r == Some(entries[PropertyKey(gbombID)])
  {
    if PropertyKey(asin) in entries then Some(entries[PropertyKey(asin)])
    else if PropertyKey(gbombID) in entries then Some(entries[PropertyKey(gbombID)])
    else None
  }

  /** The cache after `addToMetascoreCache(asin, gbombID, item)`: the entry is
      written under each identifier that is not the string '0'. */
  function Store(entries: map<string, CachedScore>, asin: Id, gbombID: Id, score: CachedScore): (r: map<string, CachedScore>)
    ensures forall key :: key in r <==>
              key in entries || (asin != IdText("0") && key == PropertyKey(asin)) || (gbombID != IdText("0") && key == PropertyKey(gbombID))
    ensures asin != IdText("0") && PropertyKey(asin) != PropertyKey(gbombID) ==> r[PropertyKey(asin)] == score
    ensures gbombID != IdText("0") ==> r[PropertyKey(gbombID)] == score
    ensures forall key :: key in entries && key != PropertyKey(asin) && key != PropertyKey(gbombID) ==> r[key] == entries[key]
  {
    var withAsin := if asin != IdText("0") then entries[PropertyKey(asin) := score] else entries;
    if gbombID != IdText("0") then withAsin[PropertyKey(gbombID) := score] else withAsin
  }

  /** A stored score is found again by the same pair of identifiers, unless
      both are '0', in which case nothing is stored; every other key keeps
      its entry. */
  lemma StoreThenLookup(entries: map<string, CachedScore>, asin: Id, gbombID: Id, score: CachedScore)
    requires "0" !in entries
    ensures asin != IdText("0") || gbombID != IdText("0") ==> Lookup(Store(entries, asin, gbombID, score), asin, gbombID) == Some(score)
    ensures asin == IdText("0") && gbombID == IdText("0") ==> Store(entries, asin, gbombID, score) == entries
    ensures forall key :: key != PropertyKey(asin) && key != PropertyKey(gbombID) ==>
              (key in Store(entries, asin, gbombID, score) <==> key in entries)
              && (key in entries ==> Store(entries, asin, gbombID, score)[key] == entries[key])
  {
  }

  /** Text identifiers never put an entry under '0' ... */
  lemma TextIdsKeepZeroOut(entries: map<string, CachedScore>, asin: Id, gbombID: Id, score: CachedScore)
    requires "0" !in entries && asin.IdText? && gbombID.IdText?
    ensures "0" !in Store(entries, asin, gbombID, score)
  {
  }

  /** ... but the number 0 is not the string '0': an item whose id is the
      number 0 stores its score under '0', and any later item without an
      asin ('0') then reads that score, whatever its GiantBomb id. */
  lemma NumericZeroIdIsShared(entries: map<string, CachedScore>, asin: Id, score: CachedScore, otherGbombID: Id)
    requires asin == IdNumber(0)
    ensures Lookup(Store(entries, asin, IdText("0"), score), IdText("0"), otherGbombID) == Some(score)
  {
    assert PropertyKey(asin) == "0";
  }

  /** The other half of the same quirk: once an entry under '0' exists, an
      item without an asin ('0') that stores a new score under its
      GiantBomb id still reads the old entry back. */
  lemma ZeroEntryShadowsLaterScores(entries: map<string, CachedScore>, gbombID: Id, score: CachedScore)
    requires "0" in entries && PropertyKey(gbombID) != "0"
    ensures Lookup(Store(entries, IdText("0"), gbombID, score), IdText("0"), gbombID) == Some(entries["0"])
  {
  }

  // -------------------------------------------------------------------------
  // Search terms

  /** The keywords sent to the search: every `\s` becomes '+', then every ':'
      is removed (before `encodeURI`). */
  function SearchKeywords(terms: string): (r: string)
    ensures r == KeywordsByChar(terms)
    ensures forall k :: 0 <= k < |r| ==> !IsSpace(r[k]) && r[k] != ':'
    ensures |r| <= |terms|
  {
    var spaced := ReplaceAll(Whitespace, terms, "+");
    ReplaceSingleCharIsMap(Whitespace, terms, 0, "+");
    ReplaceSingleCharIsMap(Colon, spaced, 0, "");
    assert terms[0..] == terms && spaced[0..] == spaced;
    MapBothIsByChar(terms);
    KeywordsByCharShape(terms);
    ReplaceAll(Colon, spaced, "")
  }

  /** What one character of the terms becomes in the keywords. */
  function KeywordText(c: char): string
  {
    if IsSpace(c) then "+" else if c == ':' then "" else [c]
  }

  /** The keywords, character by character. */
  function KeywordsByChar(terms: string): string
  {
    if terms == [] then [] else KeywordText(terms[0]) + KeywordsByChar(terms[1..])
  }

  lemma {:induction false} MapCharsAppend(p: Pattern, a: string, b: string, repl: string)
    requires p == Whitespace || p == Colon
    ensures MapChars(p, a + b, repl) == MapChars(p, a, repl) + MapChars(p, b, repl)
  {
    if a != [] {
      assert (a + b)[0] == a[0] && (a + b)[1..] == a[1..] + b;
      MapCharsAppend(p, a[1..], b, repl);
      var head := CharRewrite(p, a[0], repl);
      assert head + (MapChars(p, a[1..], repl) + MapChars(p, b, repl))
          == (head + MapChars(p, a[1..], repl)) + MapChars(p, b, repl);
    } else {
      assert a + b == b;
    }
  }

  lemma {:induction false} MapBothIsByChar(terms: string)
    ensures MapChars(Colon, MapChars(Whitespace, terms, "+"), "") == KeywordsByChar(terms)
  {
    if terms != [] {
      var head := CharRewrite(Whitespace, terms[0], "+");
      MapCharsAppend(Colon, head, MapChars(Whitespace, terms[1..], "+"), "");
      MapBothIsByChar(terms[1..]);
      assert MapChars(Colon, head, "") == KeywordText(terms[0]) by {
        if IsSpace(terms[0]) {
          assert head == "+";
          assert MapChars(Colon, head, "") == "+" + MapChars(Colon, [], "");
        } else {
          assert head == [terms[0]];
          assert MapChars(Colon, head, "") == CharRewrite(Colon, terms[0], "") + MapChars(Colon, [], "");
        }
      }
    }
  }

  lemma {:induction false} KeywordsByCharShape(terms: string)
    ensures forall k :: 0 <= k < |KeywordsByChar(terms)| ==> !IsSpace(KeywordsByChar(terms)[k]) && KeywordsByChar(terms)[k] != ':'
    ensures |KeywordsByChar(terms)| <= |terms|
  {
    if terms != [] {
      KeywordsByCharShape(terms[1..]);
    }
  }

  // -------------------------------------------------------------------------
  // Search results

  /** What `new Date(text)` yields for a result's release date: its full
      year, its zero-based month and its day of the month, or None for an
      invalid date. */
  datatype DateParts = DateParts(year: int, month: nat, day: nat)

  /** One `.result` of the search page. */
  datatype SearchResult = SearchResult(name: string, releaseDate: Option<DateParts>, platform: string, score: string, page: string)

  /** A month or day below 10 gets a leading '0'. */
  function TwoDigits(n: nat): (r: string)
    ensures |r| >= 2 && AllDigits(r)
  {
    if n < 10 then "0" + NatToString(n) else NatToString(n)
  }

  /** `getFullYear() + '-' + month + '-' + date`, the month counted from 1;
      an invalid date gives NaN for all three parts. */
  function FormatReleaseDate(d: Option<DateParts>): (r: string)
    ensures d.None? <==> r == "NaN-NaN-NaN"
    ensures d.Some? ==>
              var y := IntToString(d.value.year);
              |r| >= |y| + 6 && r[..|y|] == y && r[|y|] == '-'
  {
    match d
    case None => "NaN-NaN-NaN"
    case Some(p) =>
      var y := IntToString(p.year);
      var r := y + "-" + TwoDigits(p.month + 1) + "-" + TwoDigits(p.day);
      assert r[0] == y[0] && (y[0] == '-' || IsDigit(y[0]));
      r
  }

  /** Months and days (below 100) come out as exactly two digits that read
      back as the same number. */
  lemma TwoDigitsReadsBack(n: nat)
    requires n < 100
    ensures |TwoDigits(n)| == 2 && AllDigits(TwoDigits(n))
    ensures StringToNumber(TwoDigits(n)) == Some(n)
  {
    var r := NatToString(n);
    StringToNumberOfNat(n);
    NatToStringRoundTrip(n);
    if n < 10 {
      assert |r| == 1;
      assert ("0" + r)[..1] == "0";
      assert DigitsValue("0" + r) == DigitsValue("0") * 10 + DigitsValue(r);
    } else {
      assert NatToString(n / 10) == [DigitChar(n / 10)];
    }
  }

  /** A valid date is the year, a dash, the two-digit month counted from 1, a
      dash and the two-digit day. */
  lemma FormatReleaseDateShape(p: DateParts)
    requires p.month < 12 && p.day < 100
    ensures var s := FormatReleaseDate(Some(p));
            var y := IntToString(p.year);
            s == y + "-" + TwoDigits(p.month + 1) + "-" + TwoDigits(p.day)
            && |s| == |y| + 6 && s[|y|] == '-' && s[|y| + 3] == '-'
            && StringToNumber(s[|y| + 1..|y| + 3]) == Some(p.month + 1)
            && StringToNumber(s[|y| + 4..]) == Some(p.day)
  {
    var y := IntToString(p.year);
    var mm := TwoDigits(p.month + 1);
    var dd := TwoDigits(p.day);
    TwoDigitsReadsBack(p.month + 1);
    TwoDigitsReadsBack(p.day);
    var s := y + "-" + mm + "-" + dd;
    assert s[|y| + 1..|y| + 3] == mm;
    assert s[|y| + 4..] == dd;
  }

  /** A search result as the score sees it. */
  function ResultCandidate(r: SearchResult): Candidate
  {
    Candidate(r.name, Some(FormatReleaseDate(r.releaseDate)), Some(r.platform))
  }

  /** The score of every search result; none is skipped. */
  function ResultScores(env: Env, source: Profile, results: seq<SearchResult>): (scores: seq<Option<real>>)
    ensures |scores| == |results|
    ensures forall k :: 0 <= k < |results| ==> scores[k] == Some(SimilarityScore(env, source, ResultCandidate(results[k])))
  {
    seq(|results|, k requires 0 <= k < |results| => Some(SimilarityScore(env, source, ResultCandidate(results[k]))))
  }

  /** `getMatchedSearchResult(data, sourceItem)`: the first result with the
      strictly greatest score; unlike the item linker it seeds nothing, so
      there is no match when no score beats the floor, and none for an empty
      page. */
  method GetMatchedSearchResult(env: Env, source: Profile, results: seq<SearchResult>) returns (matched: Option<nat>)
    ensures matched.Some? <==> AboveFloorIn(ResultScores(env, source, results), |results|)
    ensures matched.Some? ==> IsFirstBest(ResultScores(env, source, results), |results|, matched.value)
    ensures |results| == 0 ==> matched.None?
  {
    ghost var scores := ResultScores(env, source, results);
    var bestMatch: Option<nat> := None;
    var bestScore := Floor;
    ScanStart(scores, false);
    var i := 0;
    while i < |results|
      invariant 0 <= i <= |results|
      invariant ScanState(scores, i, false, bestMatch, bestScore)
    {
      ghost var best0, bestScore0 := bestMatch, bestScore;
      var score := SimilarityScore(env, source, ResultCandidate(results[i]));
      if score > bestScore {
        bestMatch, bestScore := Some(i), score;
      }
      ScanStep(scores, i, false, best0, bestScore0, bestMatch, bestScore);
      i := i + 1;
    }
    matched := bestMatch;
  }

  /** What `parseMetascoreResults` writes into the item: the match's score and
      page; -1 and the page when the match has no score; -1 and '' when there
      is no match. */
  function ScoreOfMatch(m: Option<SearchResult>): (c: CachedScore)
    ensures c.metascore == Number(-1) <==> m.None? || m.value.score == ""
    ensures c.metascore != Number(-1) ==> c.metascore == Text(m.value.score)
    ensures c.metascorePage == if m.Some? then m.value.page else ""
  {
    match m
    case None => CachedScore("", Number(-1))
    case Some(r) => if r.score != "" then CachedScore(r.page, Text(r.score)) else CachedScore(r.page, Number(-1))
  }

  // -------------------------------------------------------------------------
  // getMetascore

  /** The module's cache and the searches it has sent. */
  class MetascoreCache {
    var entries: map<string, CachedScore>
    /** The keywords of every search sent to Metacritic, in order. */
    var requests: seq<string>

    constructor ()
      ensures entries == map[] && requests == []
    {
      entries := map[];
      requests := [];
    }

    /** `getMetascore(searchTerms, sourceItem, onSuccess)`, up to the search:
        on a cache hit the score and page are copied into the item and
        `onSuccess` runs at once with no search; on a miss the search for the
        rewritten terms is sent and nothing else changes. */
    method GetMetascore(searchTerms: string, item: Item) returns (delivered: bool)
      modifies this, item
      ensures entries == old(entries)
      ensures var hit := Lookup(old(entries), item.asin, item.gbombID);
              if hit.Some? then
                delivered && requests == old(requests)
                && item.metascore == hit.value.metascore && item.metascorePage == hit.value.metascorePage
              else
                !delivered && requests == old(requests) + [SearchKeywords(searchTerms)]
                && item.metascore == old(item.metascore) && item.metascorePage == old(item.metascorePage)
      ensures item.displayMetascore == old(item.displayMetascore)
      ensures item.playStatus == old(item.playStatus) && item.userRating == old(item.userRating)
      ensures item.gameStatus == old(item.gameStatus)
    {
      var cachedScore := Lookup(entries, item.asin, item.gbombID);
      if cachedScore.Some? {
        item.metascore := cachedScore.value.metascore;
        item.metascorePage := cachedScore.value.metascorePage;
        delivered := true;
      } else {
        var modifiedSearchTerms := ReplaceAll(Whitespace, searchTerms, "+");
        modifiedSearchTerms := ReplaceAll(Colon, modifiedSearchTerms, "");
        requests := requests + [modifiedSearchTerms];
        delivered := false;
      }
    }

    /** The search's success callback: `parseMetascoreResults` picks the
        matching result and writes its score into the item, then
        `addToMetascoreCache` stores that score under the item's ids, and
        `onSuccess` runs. */
    method ReceiveResults(env: Env, item: Item, results: seq<SearchResult>) returns (matched: Option<nat>)
      modifies this, item
      ensures matched.Some? <==> AboveFloorIn(ResultScores(env, item.profile, results), |results|)
      ensures matched.Some? ==> IsFirstBest(ResultScores(env, item.profile, results), |results|, matched.value)
      ensures var score := ScoreOfMatch(if matched.Some? then Some(results[matched.value]) else None);
              item.metascore == score.metascore && item.metascorePage == score.metascorePage
              && entries == Store(old(entries), item.asin, item.gbombID, score)
      ensures requests == old(requests)
      ensures item.displayMetascore == old(item.displayMetascore)
      ensures item.playStatus == old(item.playStatus) && item.userRating == old(item.userRating)
      ensures item.gameStatus == old(item.gameStatus)
    {
      matched := GetMatchedSearchResult(env, item.profile, results);
      if matched.Some? && results[matched.value].score != "" {
        item.metascore := Text(results[matched.value].score);
        item.metascorePage := results[matched.value].page;
      } else if matched.Some? {
        item.metascore := Number(-1);
        item.metascorePage := results[matched.value].page;
      } else {
        item.metascore := Number(-1);
        item.metascorePage := "";
      }
      AddToMetascoreCache(item.asin, item.gbombID, CachedScore(item.metascorePage, item.metascore));
    }

    /** `addToMetascoreCache(asin, gbombID, metacriticItem)`. */
    method AddToMetascoreCache(asin: Id, gbombID: Id, score: CachedScore)
      modifies this
      ensures entries == Store(old(entries), asin, gbombID, score)
      ensures requests == old(requests)
    {
      if asin != IdText("0") {
        entries := entries[PropertyKey(asin) := score];
      }
      if gbombID != IdText("0") {
        entries := entries[PropertyKey(gbombID) := score];
      }
    }
  }

  /** A lookup that misses and then receives its results leaves the score in
      the cache: the next lookup for the same item is a hit that sends no
      search and copies the same score and page. */
  method LookupTwice(env: Env, item: Item, searchTerms: string, results: seq<SearchResult>)
    returns (firstHit: bool, secondHit: bool, searches: nat)
    requires item.asin != IdText("0") || item.gbombID != IdText("0")
    modifies item
    ensures !firstHit && secondHit && searches == 1
  {
    var cache := new MetascoreCache();
    firstHit := cache.GetMetascore(searchTerms, item);
    var matched := cache.ReceiveResults(env, item, results);
    var score := CachedScore(item.metascorePage, item.metascore);
    StoreThenLookup(map[], item.asin, item.gbombID, score);
    secondHit := cache.GetMetascore(searchTerms, item);
    searches := |cache.requests|;
  }

  // -------------------------------------------------------------------------
  // displayMetascoreData

  datatype ScoreClass = Unavailable | Unfavorable | Neutral | Favorable

  /** The colour class and the text of a score: below 0 'unavailable' with
      text 'n/a', below 50 'unfavorable', below 75 'neutral', otherwise (and
      for a score that is not a number) 'favorable'; the text is the score
      itself except when unavailable. */
  function DisplayScore(score: ScoreValue): (r: (ScoreValue, ScoreClass))
    ensures r.1 == Unavailable <==> Less(ScoreNumber(score), Num(0.0))
    ensures r.1 == Unfavorable <==> ScoreNumber(score).Num? && 0.0 <= ScoreNumber(score).value < 50.0
    ensures r.1 == Neutral <==> ScoreNumber(score).Num? && 50.0 <= ScoreNumber(score).value < 75.0
    ensures r.1 == Favorable <==> ScoreNumber(score).NaN? || 75.0 <= ScoreNumber(score).value
    ensures r.0 == if r.1 == Unavailable then Text("n/a") else score
  {
    var x := ScoreNumber(score);
    if Less(x, Num(0.0)) then (Text("n/a"), Unavailable)
    else if Less(x, Num(50.0)) then (score, Unfavorable)
    else if Less(x, Num(75.0)) then (score, Neutral)
    else (score, Favorable)
  }

  function Rank(c: ScoreClass): nat
  {
    match c
    case Unavailable => 0
    case Unfavorable => 1
    case Neutral => 2
    case Favorable => 3
  }

  /** Of two numeric scores, the higher never gets a worse class. */
  lemma DisplayClassMonotone(a: ScoreValue, b: ScoreValue)
    requires ScoreNumber(a).Num? && ScoreNumber(b).Num?
    requires ScoreNumber(a).value <= ScoreNumber(b).value
    ensures Rank(DisplayScore(a).1) <= Rank(DisplayScore(b).1)
  {
  }

  /** What the lookup writes shows as intended: a match without a score, or no
      match, is shown as 'n/a', unavailable; an item whose score is still
      `null` is shown as 0, unfavorable. */
  lemma UnscoredShowsNotAvailable(m: Option<SearchResult>)
    ensures ScoreOfMatch(m).metascore == Number(-1) ==> DisplayScore(ScoreOfMatch(m).metascore) == (Text("n/a"), Unavailable)
    ensures DisplayScore(Null) == (Null, Unfavorable)
  {
  }
}

=== FILE: patterns.dfy ===
/** The handful of regular expressions the matching core applies, each
    written out as a matcher that returns where the JavaScript engine's
    backtracking match starting at a given position ends, together with
    the search for the leftmost match (`exec`) and the global replacement
    (`replace` with the `g` flag). */
module Patterns {
  import opened JsValues

  datatype Pattern =
    | Brackets       // /\s*[\[\(].*[\)\]]/gi
    | Trophies       // /\s*trophies/gi
    | EditionSuffix  // /\S+ edition$/gi
    | WithTail       // /\swith\s.*/gi
    | LeadingThe     // /^\s*the\s/gi
    | RomanRun       // /\s[XVI]+/gi
    | TripleI        // /III/gi
    | Whitespace     // /\s/g
    | Colon          // /:/g

  predicate IsOpenBracket(c: char) { c == '[' || c == '(' }
  predicate IsCloseBracket(c: char) { c == ']' || c == ')' }
  predicate IsRomanLetter(c: char) { c in "IVXivx" }

  /** End of the longest run of characters satisfying `p` from `i`. */
  function RunEnd(s: string, i: nat, p: char -> bool): (e: nat)
    requires i <= |s|
    ensures i <= e <= |s|
    ensures forall k :: i <= k < e ==> p(s[k])
    ensures e < |s| ==> !p(s[e])
    decreases |s| - i
  {
    if i < |s| && p(s[i]) then RunEnd(s, i + 1, p) else i
  }

  predicate IsNonSpace(c: char) { !IsSpace(c) }

  /** A run that stops at `e` ends there. */
  lemma RunEndIs(s: string, i: nat, e: nat, p: char -> bool)
    requires i <= e <= |s|
    requires forall k :: i <= k < e ==> p(s[k])
    requires e < |s| ==> !p(s[e])
    ensures RunEnd(s, i, p) == e
  {
  }

  function SpacesEnd(s: string, i: nat): (e: nat)
    requires i <= |s|
    ensures i <= e <= |s|
  {
    RunEnd(s, i, IsSpace)
  }

  /** End of the line holding position `i`: how far a greedy `.*` reaches. */
  function LineEnd(s: string, i: nat): (e: nat)
    requires i <= |s|
    ensures i <= e <= |s|
    ensures forall k :: i <= k < e ==> !IsLineTerminator(s[k])
    ensures e < |s| ==> IsLineTerminator(s[e])
  {
    RunEnd(s, i, c => !IsLineTerminator(c))
  }

  /** The last closing bracket in `s[lo..hi]`, which is where the greedy
      `.*` of the bracket pattern gives back to. */
  function LastClose(s: string, lo: nat, hi: nat): (t: Option<nat>)
    requires lo <= hi <= |s|
    ensures t.Some? ==> lo <= t.value < hi && IsCloseBracket(s[t.value])
    ensures t.Some? ==> forall k :: t.value < k < hi ==> !IsCloseBracket(s[k])
    ensures t.None? ==> forall k :: lo <= k < hi ==> !IsCloseBracket(s[k])
    decreases hi - lo
  {
    if lo == hi then None
    else if IsCloseBracket(s[hi - 1]) then Some(hi - 1)
    else LastClose(s, lo, hi - 1)
  }

  /** Whether `s[i..]` starts with `word`, ignoring ASCII case. */
  predicate HasWordAt(s: string, i: nat, word: string)
  {
    i + |word| <= |s| && EqualsIgnoreCase(s[i..i + |word|], word)
  }

  function BracketsAt(s: string, i: nat): (e: Option<nat>)
    requires i <= |s|
    ensures e.Some? ==> i < e.value <= |s|
  {
    var q := SpacesEnd(s, i);
    if q < |s| && IsOpenBracket(s[q]) then
      match LastClose(s, q + 1, LineEnd(s, q + 1))
      case Some(t) => Some(t + 1)
      case None => None
    else None
  }

  function TrophiesAt(s: string, i: nat): (e: Option<nat>)
    requires i <= |s|
    ensures e.Some? ==> i < e.value <= |s|
  {
    var q := SpacesEnd(s, i);
    if HasWordAt(s, q, "trophies") then Some(q + 8) else None
  }

  function EditionSuffixAt(s: string, i: nat): (e: Option<nat>)
    requires i <= |s|
    ensures e.Some? ==> i < e.value <= |s|
  {
    var q := RunEnd(s, i, IsNonSpace);
    if i < q && q + 8 == |s| && s[q] == ' ' && HasWordAt(s, q + 1, "edition") then Some(|s|) else None
  }

  function WithTailAt(s: string, i: nat): (e: Option<nat>)
    requires i <= |s|
    ensures e.Some? ==> i < e.value <= |s|
  {
    if i + 6 <= |s| && IsSpace(s[i]) && HasWordAt(s, i + 1, "with") && IsSpace(s[i + 5])
    then Some(LineEnd(s, i + 6)) else None
  }

  function LeadingTheAt(s: string, i: nat): (e: Option<nat>)
    requires i <= |s|
    ensures e.Some? ==> i < e.value <= |s|
  {
    var q := SpacesEnd(s, i);
    if i == 0 && HasWordAt(s, q, "the") && q + 3 < |s| && IsSpace(s[q + 3]) then Some(q + 4) else None
  }

  function RomanRunAt(s: string, i: nat): (e: Option<nat>)
    requires i <= |s|
    ensures e.Some? ==> i < e.value <= |s|
  {
    if i + 1 < |s| && IsSpace(s[i]) && IsRomanLetter(s[i + 1]) then Some(RunEnd(s, i + 1, IsRomanLetter)) else None
  }

  /** Where the match of `p` that starts exactly at `i` ends, if there is one.
      Why each case is the engine's answer: a run of `\s*` followed by a
      letter or bracket cannot give back characters (a blank is never that
      letter), `\S+` followed by a blank cannot either, and a greedy `.*`
      before a bracket class gives back to the last such bracket. */
  function MatchAt(p: Pattern, s: string, i: nat): (e: Option<nat>)
    requires i <= |s|
    ensures e.Some? ==> i < e.value <= |s|
  {
    match p
    case Brackets => BracketsAt(s, i)
    case Trophies => TrophiesAt(s, i)
    case EditionSuffix => EditionSuffixAt(s, i)
    case WithTail => WithTailAt(s, i)
    case LeadingThe => LeadingTheAt(s, i)
    case RomanRun => RomanRunAt(s, i)
    case TripleI => if HasWordAt(s, i, "III") then Some(i + 3) else None
    case Whitespace => if i < |s| && IsSpace(s[i]) then Some(i + 1) else None
    case Colon => if i < |s| && s[i] == ':' then Some(i + 1) else None
  }

  /** `exec` from position `i`: the leftmost match at or after `i`, as the
      pair (start, end). */
  function FirstMatch(p: Pattern, s: string, i: nat): (m: Option<(nat, nat)>)
    requires i <= |s|
    ensures m.Some? ==> i <= m.value.0 <= |s| && MatchAt(p, s, m.value.0) == Some(m.value.1)
    ensures m.Some? ==> forall k :: i <= k < m.value.0 ==> MatchAt(p, s, k).None?
    ensures m.None? ==> forall k :: i <= k <= |s| ==> MatchAt(p, s, k).None?
    decreases |s| - i
  {
    match MatchAt(p, s, i)
    case Some(e) => Some((i, e))
    case None => if i == |s| then None else FirstMatch(p, s, i + 1)
  }

  /** Global replacement of every match of `p` in `s[i..]` by `repl`, scanning
      left to right and resuming after each match. */
  function ReplaceFrom(p: Pattern, s: string, i: nat, repl: string): string
    requires i <= |s|
    decreases |s| - i
  {
    if i == |s| then []
    else match MatchAt(p, s, i)
      case Some(e) => repl + ReplaceFrom(p, s, e, repl)
      case None => [s[i]] + ReplaceFrom(p, s, i + 1, repl)
  }

  /** `s.replace(/p/g, repl)`. */
  function ReplaceAll(p: Pattern, s: string, repl: string): string
  {
    ReplaceFrom(p, s, 0, repl)
  }

  // -----------------------------------------------------------------------
  // Deleting matches keeps a subsequence

  /** `a` is `b` with some characters deleted. */
  predicate IsSubsequence(a: string, b: string)
    decreases |b|
  {
    if a == [] then true
    else if b == [] then false
    else if a[0] == b[0] then IsSubsequence(a[1..], b[1..])
    else IsSubsequence(a, b[1..])
  }

  lemma {:induction false} SubsequenceOfSelf(s: string)
    ensures IsSubsequence(s, s)
    decreases |s|
  {
    if s != [] { SubsequenceOfSelf(s[1..]); }
  }

  lemma {:induction false} SubsequenceLength(a: string, b: string)
    requires IsSubsequence(a, b)
    ensures |a| <= |b|
    decreases |b|
  {
    if a != [] && b != [] {
      if a[0] == b[0] { SubsequenceLength(a[1..], b[1..]); } else { SubsequenceLength(a, b[1..]); }
    }
  }

  lemma {:induction false} SubsequenceOfEmptyIsEmpty(a: string)
    requires IsSubsequence(a, [])
    ensures a == []
  {
  }

  /** A subsequence stays one when a character is put in front of the
      longer string. */
  lemma {:induction false} SubsequenceCons(a: string, b: string, x: char)
    requires IsSubsequence(a, b)
    ensures IsSubsequence(a, [x] + b)
    decreases |b|, 1
  {
    var c := [x] + b;
    assert c[1..] == b;
    if a != [] && a[0] == x {
      SubsequenceTail(a, b);
    }
  }

  /** Dropping the head of a subsequence keeps a subsequence. */
  lemma {:induction false} SubsequenceTail(a: string, b: string)
    requires a != [] && IsSubsequence(a, b)
    ensures IsSubsequence(a[1..], b)
    decreases |b|, 0
  {
    if a[0] == b[0] {
      SubsequenceCons(a[1..], b[1..], b[0]);
    } else {
      SubsequenceTail(a, b[1..]);
      SubsequenceCons(a[1..], b[1..], b[0]);
    }
    assert [b[0]] + b[1..] == b;
  }

  /** A subsequence of a suffix is a subsequence of any longer suffix. */
  lemma {:induction false} SubsequenceOfLongerSuffix(a: string, b: string, i: nat, j: nat)
    requires i <= j <= |b| && IsSubsequence(a, b[j..])
    ensures IsSubsequence(a, b[i..])
    decreases j - i
  {
    if i < j {
      SubsequenceOfLongerSuffix(a, b, i + 1, j);
      SubsequenceCons(a, b[i + 1..], b[i]);
      assert [b[i]] + b[i + 1..] == b[i..];
    }
  }

  lemma {:induction false} SubsequenceTransitive(a: string, b: string, c: string)
    requires IsSubsequence(a, b) && IsSubsequence(b, c)
    ensures IsSubsequence(a, c)
    decreases |c|
  {
    if a == [] {
    } else if c == [] {
      SubsequenceOfEmptyIsEmpty(b);
    } else if b[0] == c[0] {
      if a[0] == b[0] {
        SubsequenceTransitive(a[1..], b[1..], c[1..]);
      } else {
        SubsequenceTransitive(a, b[1..], c[1..]);
      }
    } else {
      SubsequenceTransitive(a, b, c[1..]);
      if a[0] == c[0] {
        SubsequenceTail(a, c[1..]);
      }
    }
  }

  /** Where the scan of `ReplaceFrom` resumes after position `i`: after the
      match there, or at the next character. */
  function Resume(p: Pattern, s: string, i: nat): (j: nat)
    requires i < |s|
    ensures i < j <= |s|
  {
    match MatchAt(p, s, i)
    case Some(e) => e
    case None => i + 1
  }

  /** Deleting every match (replacing it by the empty string) leaves a
      subsequence of the input: the rewrite only deletes. */
  lemma {:induction false} DeleteFromIsSubsequence(p: Pattern, s: string, i: nat)
    requires i <= |s|
    ensures IsSubsequence(ReplaceFrom(p, s, i, ""), s[i..])
    decreases |s| - i
  {
    if i < |s| {
      DeleteFromIsSubsequence(p, s, Resume(p, s, i));
      DeleteStep(p, s, i);
    }
  }

  /** One step of the scan keeps the result a subsequence. */
  lemma DeleteStep(p: Pattern, s: string, i: nat)
    requires i < |s|
    requires IsSubsequence(ReplaceFrom(p, s, Resume(p, s, i), ""), s[Resume(p, s, i)..])
    ensures IsSubsequence(ReplaceFrom(p, s, i, ""), s[i..])
  {
    match MatchAt(p, s, i)
    case Some(e) => DeletedMatchStep(p, s, i, e);
    case None => KeptCharStep(p, s, i);
  }

  /** A match at `i` is deleted: the rest is a subsequence of what follows
      the match, hence of `s[i..]`. */
  lemma DeletedMatchStep(p: Pattern, s: string, i: nat, e: nat)
    requires i < |s| && MatchAt(p, s, i) == Some(e)
    requires IsSubsequence(ReplaceFrom(p, s, e, ""), s[e..])
    ensures IsSubsequence(ReplaceFrom(p, s, i, ""), s[i..])
  {
    var rest := ReplaceFrom(p, s, e, "");
    assert ReplaceFrom(p, s, i, "") == rest by {
      assert ReplaceFrom(p, s, i, "") == "" + rest;
    }
    SubsequenceOfLongerSuffix(rest, s, i, e);
  }

  /** Without a match at `i` the character is kept and the rest follows. */
  lemma KeptCharStep(p: Pattern, s: string, i: nat)
    requires i < |s| && MatchAt(p, s, i).None?
    requires IsSubsequence(ReplaceFrom(p, s, i + 1, ""), s[i + 1..])
    ensures IsSubsequence(ReplaceFrom(p, s, i, ""), s[i..])
  {
    var rest := ReplaceFrom(p, s, i + 1, "");
    var r := [s[i]] + rest;
    assert ReplaceFrom(p, s, i, "") == r;
    assert r[0] == s[i..][0];
    assert r[1..] == rest;
    assert s[i..][1..] == s[i + 1..];
  }

  lemma DeleteAllIsSubsequence(p: Pattern, s: string)
    ensures IsSubsequence(ReplaceAll(p, s, ""), s)
  {
    DeleteFromIsSubsequence(p, s, 0);
    assert s[0..] == s;
  }

  /** Without a match anywhere, global replacement changes nothing. */
  lemma {:induction false} ReplaceFromWithoutMatch(p: Pattern, s: string, i: nat, repl: string)
    requires i <= |s|
    requires forall k :: i <= k < |s| ==> MatchAt(p, s, k).None?
    ensures ReplaceFrom(p, s, i, repl) == s[i..]
    decreases |s| - i
  {
    if i < |s| {
      assert MatchAt(p, s, i).None?;
      ReplaceFromWithoutMatch(p, s, i + 1, repl);
      assert s[i..] == [s[i]] + s[i + 1..];
    }
  }

  /** A match at `i` is replaced and the scan resumes after it. */
  lemma ReplaceAtMatch(p: Pattern, s: string, i: nat, e: nat, repl: string)
    requires i <= |s| && MatchAt(p, s, i) == Some(e)
    ensures ReplaceFrom(p, s, i, repl) == repl + ReplaceFrom(p, s, e, repl)
  {
  }

  /** Without a match at `i` the character is kept and the scan moves on. */
  lemma KeepWithoutMatch(p: Pattern, s: string, i: nat, repl: string)
    requires i < |s| && MatchAt(p, s, i).None?
    ensures ReplaceFrom(p, s, i, repl) == [s[i]] + ReplaceFrom(p, s, i + 1, repl)
  {
  }

  /** Global replacement from `i`, when the first match at or after `i`
      spans `j` to `e`: the text up to `j` is kept, `repl` takes the place of
      the match and the scan carries on after it. */
  lemma {:induction false} ReplaceFromAtFirstMatch(p: Pattern, s: string, i: nat, j: nat, e: nat, repl: string)
    requires i <= j <= |s| && MatchAt(p, s, j) == Some(e)
    requires forall k :: i <= k < j ==> MatchAt(p, s, k).None?
    ensures ReplaceFrom(p, s, i, repl) == s[i..j] + repl + ReplaceFrom(p, s, e, repl)
    decreases j - i
  {
    if j == i {
      ReplaceAtMatch(p, s, i, e, repl);
      assert s[i..j] == [];
    } else {
      ReplaceFromAtFirstMatch(p, s, i + 1, j, e, repl);
      KeepBeforeMatch(p, s, i, j, e, repl);
    }
  }

  /** One kept character in front of the first match. */
  lemma KeepBeforeMatch(p: Pattern, s: string, i: nat, j: nat, e: nat, repl: string)
    requires i < j <= |s| && e <= |s| && MatchAt(p, s, i).None?
    requires ReplaceFrom(p, s, i + 1, repl) == s[i + 1..j] + repl + ReplaceFrom(p, s, e, repl)
    ensures ReplaceFrom(p, s, i, repl) == s[i..j] + repl + ReplaceFrom(p, s, e, repl)
  {
    KeepWithoutMatch(p, s, i, repl);
    PrependToSlice(s, i, j, repl, ReplaceFrom(p, s, e, repl));
  }

  /** Putting `s[i]` in front of a text that starts with `s[i + 1..j]`. */
  lemma PrependToSlice(s: string, i: nat, j: nat, repl: string, after: string)
    requires i < j <= |s|
    ensures [s[i]] + (s[i + 1..j] + repl + after) == s[i..j] + repl + after
  {
    assert s[i..j] == [s[i]] + s[i + 1..j];
  }

  // -----------------------------------------------------------------------
  // Texts some of the patterns cannot match

  /** A text whose `n`-th letter differs from the `n`-th letter of `word`,
      ignoring case, does not hold `word` there. */
  lemma NotWordAt(s: string, q: nat, word: string, n: nat)
    requires q + |word| <= |s| && n < |word|
    requires LowerChar(s[q + n]) != LowerChar(word[n])
    ensures !HasWordAt(s, q, word)
  {
    var piece := s[q..q + |word|];
    assert piece[n] == s[q + n];
    assert Lower(piece)[n] != Lower(word)[n];
  }

  /** The bracket pattern matches nowhere in `s[i..j]` when that stretch
      holds no opening bracket and does not end in a blank (the `\s*` in
      front of the bracket cannot reach past it). */
  lemma NoBracketsBefore(s: string, i: nat, j: nat)
    requires i < j <= |s| && !IsSpace(s[j - 1])
    requires forall k :: i <= k < j ==> !IsOpenBracket(s[k])
    ensures forall k :: i <= k < j ==> MatchAt(Brackets, s, k).None?
  {
    forall k | i <= k < j
      ensures MatchAt(Brackets, s, k).None?
    {
      var q := SpacesEnd(s, k);
      assert q < j;
    }
  }

  /** A text in which the `n`-th letter of `word` does not occur, in either
      case, holds `word` nowhere. */
  lemma WordNeedsLetter(s: string, word: string, n: nat, q: nat)
    requires n < |word|
    requires forall k :: 0 <= k < |s| ==> LowerChar(s[k]) != LowerChar(word[n])
    ensures !HasWordAt(s, q, word)
  {
    if q + |word| <= |s| {
      NotWordAt(s, q, word, n);
    }
  }

  /** Without an opening bracket the bracket pattern deletes nothing. */
  lemma BracketsKeep(s: string)
    requires '(' !in s && '[' !in s
    ensures ReplaceAll(Brackets, s, "") == s
  {
    forall k | 0 <= k < |s|
      ensures MatchAt(Brackets, s, k).None?
    {
      var q := SpacesEnd(s, k);
      assert q < |s| ==> s[q] in s;
    }
    ReplaceFromWithoutMatch(Brackets, s, 0, "");
    assert s[0..] == s;
  }

  /** After a title without brackets that does not end in a blank, the
      first bracket match is a parenthesized tail on one line, with the
      blank in front of it. */
  lemma BracketsTailMatch(t: string, inner: string)
    requires |t| > 0 && !IsSpace(t[|t| - 1])
    requires '(' !in t && '[' !in t
    requires forall k :: 0 <= k < |inner| ==> !IsLineTerminator(inner[k])
    ensures forall k :: 0 <= k < |t| ==> MatchAt(Brackets, t + " (" + inner + ")", k).None?
    ensures MatchAt(Brackets, t + " (" + inner + ")", |t|) == Some(|t| + |inner| + 3)
  {
    var s := t + " (" + inner + ")";
    forall k | 0 <= k < |t|
      ensures !IsOpenBracket(s[k])
    {
      assert s[k] == t[k] && t[k] in t;
    }
    NoBracketsBefore(s, 0, |t|);
    RunEndIs(s, |t|, |t| + 1, IsSpace);
    RunEndIs(s, |t| + 2, |s|, c => !IsLineTerminator(c));
  }

  /** A parenthesized tail after a title without brackets, on one line, is
      deleted together with the blank in front of it. */
  lemma BracketsDeleteTail(t: string, inner: string)
    requires |t| > 0 && !IsSpace(t[|t| - 1])
    requires '(' !in t && '[' !in t
    requires forall k :: 0 <= k < |inner| ==> !IsLineTerminator(inner[k])
    ensures ReplaceAll(Brackets, t + " (" + inner + ")", "") == t
  {
    var s := t + " (" + inner + ")";
    BracketsTailMatch(t, inner);
    ReplaceFromAtFirstMatch(Brackets, s, 0, |t|, |s|, "");
    assert s[0..|t|] == t;
  }

  /** Without a 'p' there is no "trophies" to delete. */
  lemma TrophiesKeep(s: string)
    requires 'p' !in s && 'P' !in s
    ensures ReplaceAll(Trophies, s, "") == s
  {
    assert forall k :: 0 <= k < |s| ==> s[k] in s && LowerChar(s[k]) != 'p';
    forall k | 0 <= k < |s|
      ensures MatchAt(Trophies, s, k).None?
    {
      WordNeedsLetter(s, "trophies", 3, SpacesEnd(s, k));
    }
    ReplaceFromWithoutMatch(Trophies, s, 0, "");
    assert s[0..] == s;
  }

  /** "<word> edition" at the end needs a blank eight characters before
      the end. */
  lemma EditionSuffixKeep(s: string)
    requires |s| < 8 || s[|s| - 8] != ' '
    ensures ReplaceAll(EditionSuffix, s, "") == s
  {
    ReplaceFromWithoutMatch(EditionSuffix, s, 0, "");
    assert s[0..] == s;
  }

  /** Without an 'i' there is no " with " to cut at. */
  lemma WithTailKeep(s: string)
    requires 'i' !in s && 'I' !in s
    ensures ReplaceAll(WithTail, s, "") == s
  {
    assert forall k :: 0 <= k < |s| ==> s[k] in s && LowerChar(s[k]) != 'i';
    forall k | 0 <= k < |s|
      ensures MatchAt(WithTail, s, k).None?
    {
      WordNeedsLetter(s, "with", 1, k + 1);
    }
    ReplaceFromWithoutMatch(WithTail, s, 0, "");
    assert s[0..] == s;
  }

  /** A text that starts with a letter other than 't' keeps its start. */
  lemma LeadingTheKeep(s: string)
    requires |s| > 0 && !IsSpace(s[0]) && LowerChar(s[0]) != 't'
    ensures ReplaceAll(LeadingThe, s, "") == s
  {
    RunEndIs(s, 0, 0, IsSpace);
    if 3 <= |s| {
      NotWordAt(s, 0, "the", 0);
    }
    ReplaceFromWithoutMatch(LeadingThe, s, 0, "");
    assert s[0..] == s;
  }

  /** A leading "The " is deleted and nothing after it. */
  lemma LeadingTheDelete(rest: string)
    ensures ReplaceAll(LeadingThe, "The " + rest, "") == rest
  {
    var s := "The " + rest;
    RunEndIs(s, 0, 0, IsSpace);
    assert s[0..3] == "The";
    assert Lower("The") == "the" by {
      var low := Lower("The");
      assert low[0] == 't' && low[1..] == "he";
    }
    assert MatchAt(LeadingThe, s, 0) == Some(4);
    ReplaceFromWithoutMatch(LeadingThe, s, 4, "");
    ReplaceFromAtFirstMatch(LeadingThe, s, 0, 0, 4, "");
    assert s[4..] == rest;
  }

  // -----------------------------------------------------------------------
  // Single-character patterns: a character-wise reference definition

  /** What the two single-character patterns do to one character. */
  function CharRewrite(p: Pattern, c: char, repl: string): string
    requires p == Whitespace || p == Colon
  {
    if (p == Whitespace && IsSpace(c)) || (p == Colon && c == ':') then repl else [c]
  }

  function MapChars(p: Pattern, s: string, repl: string): string
    requires p == Whitespace || p == Colon
  {
    if s == [] then [] else CharRewrite(p, s[0], repl) + MapChars(p, s[1..], repl)
  }

  /** For a single-character pattern the global replacement rewrites each
      character on its own. */
  lemma {:induction false} ReplaceSingleCharIsMap(p: Pattern, s: string, i: nat, repl: string)
    requires p == Whitespace || p == Colon
    requires i <= |s|
    ensures ReplaceFrom(p, s, i, repl) == MapChars(p, s[i..], repl)
    decreases |s| - i
  {
    if i < |s| {
      ReplaceSingleCharIsMap(p, s, i + 1, repl);
      assert s[i..][1..] == s[i + 1..];
    }
  }
}

=== FILE: similarity.dfy ===
/** `getSimilarityScore`: how closely a search result matches the item being
    linked, from the edit distance of the names, the distance in days between
    the release dates and whether the platforms agree; and the selection rule
    every "keep the best score" loop of the matching core follows. */
module Similarity {
  import opened JsValues
  import opened EditDistance

  /** The fields of the item being linked that the score reads. */
  datatype Profile = Profile(standardName: string, releaseDate: string, platform: string)

  /** A search result as the score sees it: `releaseDate` and `platform` may
      be undefined. */
  datatype Candidate = Candidate(name: string, releaseDate: Option<string>, platform: Option<string>)

  /** The foreign functions the score calls: `Date.parse` (milliseconds, or
      None for NaN) and `Utilities.matchPlatformToIndex(p).name`. */
  datatype Env = Env(parseDate: string -> Option<int>, standardPlatform: string -> string)

  const MsPerDay: int := 86400000

  /** The date GiantBomb results carry when the release date is unknown. */
  const UnknownDate: string := "1900-01-01"

  /** `Math.floor((Date.parse(a) - Date.parse(b)) / 86400000)`, None for NaN.
      Dafny's division by a positive divisor rounds down, as `Math.floor`
      does. */
  function DayDifference(env: Env, a: string, b: string): (d: Option<int>)
    ensures d.Some? <==> env.parseDate(a).Some? && env.parseDate(b).Some?
    ensures d.Some? ==> d.value * MsPerDay <= env.parseDate(a).value - env.parseDate(b).value < (d.value + 1) * MsPerDay
  {
    match (env.parseDate(a), env.parseDate(b))
    case (Some(x), Some(y)) => Some((x - y) / MsPerDay)
    case _ => None
  }

  function Abs(x: int): nat
  {
    if x < 0 then -x else x
  }

  /** What the release date adds: 100 for the same day, less `|days| / 365`
      unless the difference is NaN or the result's date is the unknown
      marker; nothing when the result has no date. */
  function DateTerm(env: Env, source: Profile, c: Candidate): (t: real)
    ensures c.releaseDate.None? ==> t == 0.0
    ensures t == 100.0 <==> c.releaseDate.Some? && DayDifference(env, source.releaseDate, c.releaseDate.value) == Some(0)
    ensures t != 100.0 ==> t <= 0.0
  {
    match c.releaseDate
    case None => 0.0
    case Some(date) =>
      var diff := DayDifference(env, source.releaseDate, date);
      var bonus := if diff == Some(0) then 100.0 else 0.0;
      var penalty := if diff.Some? && date != UnknownDate then Abs(diff.value) as real / 365.0 else 0.0;
      bonus - penalty
  }

  /** What the platform adds: 20 when the result's platform standardises to
      the item's platform; nothing when the result has no platform. */
  function PlatformTerm(env: Env, source: Profile, c: Candidate): (t: real)
    ensures t == 0.0 || t == 20.0
    ensures t == 20.0 <==> c.platform.Some? && source.platform == env.standardPlatform(c.platform.value)
  {
    match c.platform
    case None => 0.0
    case Some(p) => if source.platform == env.standardPlatform(p) then 20.0 else 0.0
  }

  /** `getSimilarityScore(sourceItem, searchItem)`: the name term is at most
      100, the date term at most 100 and the platform term at most 20. */
  function SimilarityScore(env: Env, source: Profile, c: Candidate): (score: real)
    ensures score <= (100 - Distance(source.standardName, c.name)) as real + 120.0
    ensures score <= 220.0
    ensures c.releaseDate.None? && c.platform.None? ==> score == (100 - Distance(source.standardName, c.name)) as real
  {
    (100 - Distance(source.standardName, c.name)) as real + DateTerm(env, source, c) + PlatformTerm(env, source, c)
  }

  // -------------------------------------------------------------------------
  // Properties of the score

  /** A result with neither date nor platform, like a Wikipedia page title,
      scores `100 - levenshtein`: at most 100, and exactly 100 only for the
      same name. */
  lemma NameOnlyScore(env: Env, source: Profile, c: Candidate)
    requires c.releaseDate.None? && c.platform.None?
    ensures SimilarityScore(env, source, c) == (100 - Distance(source.standardName, c.name)) as real
    ensures SimilarityScore(env, source, c) <= 100.0
    ensures SimilarityScore(env, source, c) == 100.0 <==> c.name == source.standardName
  {
    DistanceZeroIffEqual(source.standardName, c.name);
  }

  /** No result scores above 220, and 220 is reached exactly by a result
      with the same name, released the same day, on the same platform. */
  lemma ScoreAtMost220(env: Env, source: Profile, c: Candidate)
    ensures SimilarityScore(env, source, c) <= 220.0
    ensures SimilarityScore(env, source, c) == 220.0 <==>
              c.name == source.standardName
              && c.releaseDate.Some? && DayDifference(env, source.releaseDate, c.releaseDate.value) == Some(0)
              && c.platform.Some? && source.platform == env.standardPlatform(c.platform.value)
  {
    DistanceZeroIffEqual(source.standardName, c.name);
  }

  /** Of two results that differ only in their release date, one released on
      the item's day scores at least 100 more than one released any other
      day. */
  lemma SameDayWinsBy100(env: Env, source: Profile, c: Candidate, date: string)
    requires c.releaseDate.Some?
    requires DayDifference(env, source.releaseDate, c.releaseDate.value) == Some(0)
    requires DayDifference(env, source.releaseDate, date) != Some(0)
    ensures SimilarityScore(env, source, c) >= SimilarityScore(env, source, c.(releaseDate := Some(date))) + 100.0
  {
  }

  /** Among dated results that differ only in their date, and whose dates
      are neither the same day nor the unknown marker, the one fewer days
      away scores higher. */
  lemma CloserDateScoresHigher(env: Env, source: Profile, c: Candidate, near: string, far: string)
    requires near != UnknownDate && far != UnknownDate
    requires DayDifference(env, source.releaseDate, near).Some? && DayDifference(env, source.releaseDate, far).Some?
    requires DayDifference(env, source.releaseDate, near) != Some(0)
    requires Abs(DayDifference(env, source.releaseDate, near).value) < Abs(DayDifference(env, source.releaseDate, far).value)
    ensures SimilarityScore(env, source, c.(releaseDate := Some(far))) < SimilarityScore(env, source, c.(releaseDate := Some(near)))
  {
  }

  /** The unknown date marker and an unparseable date cost nothing beyond
      losing the same-day bonus. */
  lemma UnknownDateNoPenalty(env: Env, source: Profile, c: Candidate, date: string)
    requires date == UnknownDate || DayDifference(env, source.releaseDate, date).None?
    ensures DateTerm(env, source, c.(releaseDate := Some(date))) ==
            if DayDifference(env, source.releaseDate, date) == Some(0) then 100.0 else 0.0
  {
  }

  /** The platform is worth exactly 20 points. */
  lemma PlatformWorth20(env: Env, source: Profile, c: Candidate, p: string, q: string)
    requires source.platform == env.standardPlatform(p) && source.platform != env.standardPlatform(q)
    ensures SimilarityScore(env, source, c.(platform := Some(p))) == SimilarityScore(env, source, c.(platform := Some(q))) + 20.0
    ensures SimilarityScore(env, source, c.(platform := Some(q))) == SimilarityScore(env, source, c.(platform := None))
  {
  }

  // -------------------------------------------------------------------------
  // Choosing the best result

  /** The initial `bestScore` of every selection loop. */
  const Floor: real := -99999.0

  // Every selection loop walks the results in order, skips some (`None`
  // below: Amazon's filtered items), and keeps a result whose score is
  // strictly greater than the best so far. The predicates read the first
  // `n` scores.

  /** Some considered score among the first `n` is above the floor. */
  predicate AboveFloorIn(scores: seq<Option<real>>, n: nat)
    requires n <= |scores|
  {
    exists k :: 0 <= k < n && scores[k].Some? && Floor < scores[k].value
  }

  /** Some result among the first `n` is considered. */
  predicate ConsideredIn(scores: seq<Option<real>>, n: nat)
    requires n <= |scores|
  {
    exists k :: 0 <= k < n && scores[k].Some?
  }

  /** Index `i` holds the first strictly greatest of the first `n` considered
      scores, and that score is above the floor. */
  predicate IsFirstBest(scores: seq<Option<real>>, n: nat, i: nat)
  {
    i < n <= |scores| && scores[i].Some? && Floor < scores[i].value
    && (forall k :: 0 <= k < n && scores[k].Some? ==> scores[k].value <= scores[i].value)
    && (forall k :: 0 <= k < i && scores[k].Some? ==> scores[k].value < scores[i].value)
  }

  /** Index `i` is the first considered result among the first `n`. */
  predicate IsFirstConsidered(scores: seq<Option<real>>, n: nat, i: nat)
  {
    i < n <= |scores| && scores[i].Some? && forall k :: 0 <= k < i ==> scores[k].None?
  }

  /** The pick of a scan seeded with the first considered result: the first
      best when a score beats the floor, the seed otherwise. */
  predicate IsSeededPick(scores: seq<Option<real>>, n: nat, i: nat)
    requires n <= |scores|
  {
    if AboveFloorIn(scores, n) then IsFirstBest(scores, n, i) else IsFirstConsidered(scores, n, i)
  }

  /** What `bestMatch` and `bestScore` hold after the first `n` results: the
      first best and its score once a score beats the floor; before that the
      floor, and the seed (the first considered result) when the scan seeds
      one, nothing when it does not. */
  predicate ScanState(scores: seq<Option<real>>, n: nat, seeded: bool, best: Option<nat>, bestScore: real)
  {
    n <= |scores| &&
    if AboveFloorIn(scores, n) then
      best.Some? && IsFirstBest(scores, n, best.value) && bestScore == scores[best.value].value
    else
      bestScore == Floor &&
      if seeded then (best.Some? <==> ConsideredIn(scores, n)) && (best.Some? ==> IsFirstConsidered(scores, n, best.value))
      else best.None?
  }

  lemma ConsideredInStep(scores: seq<Option<real>>, n: nat)
    requires n < |scores|
    ensures ConsideredIn(scores, n + 1) <==> ConsideredIn(scores, n) || scores[n].Some?
  {
    if ConsideredIn(scores, n) {
      var k :| 0 <= k < n && scores[k].Some?;
      assert 0 <= k < n + 1 && scores[k].Some?;
    }
  }

  lemma ScanStart(scores: seq<Option<real>>, seeded: bool)
    ensures ScanState(scores, 0, seeded, None, Floor)
  {
  }

  /** One iteration of a selection loop keeps `ScanState`: a skipped result
      changes nothing; a considered one first becomes the seed if it is the
      first considered (in a seeded scan), then replaces the best if its
      score is greater. */
  lemma {:induction false} ScanStep(scores: seq<Option<real>>, n: nat, seeded: bool, best: Option<nat>, bestScore: real,
                                    best': Option<nat>, bestScore': real)
    requires ScanState(scores, n, seeded, best, bestScore) && n < |scores|
    requires scores[n].None? ==> best' == best && bestScore' == bestScore
    requires scores[n].Some? ==>
               var seed := if seeded && !ConsideredIn(scores, n) then Some(n) else best;
               if bestScore < scores[n].value then best' == Some(n) && bestScore' == scores[n].value
               else best' == seed && bestScore' == bestScore
    ensures ScanState(scores, n + 1, seeded, best', bestScore')
  {
    if AboveFloorIn(scores, n) {
      var b := best.value;
      assert AboveFloorIn(scores, n + 1) by {
        assert scores[b].Some? && Floor < scores[b].value;
      }
    } else if scores[n].Some? && Floor < scores[n].value {
      assert AboveFloorIn(scores, n + 1);
    } else {
      assert forall k :: 0 <= k < n + 1 && scores[k].Some? ==> scores[k].value <= Floor;
      if seeded && scores[n].Some? && !ConsideredIn(scores, n) {
        assert ConsideredIn(scores, n + 1);
      } else if seeded && best.Some? {
        assert ConsideredIn(scores, n + 1) by {
          assert scores[best.value].Some?;
        }
      } else if seeded {
        assert forall k :: 0 <= k < n + 1 ==> scores[k].None?;
      }
    }
  }

  /** The selection is a function of the scores: two picks are the same. */
  lemma SeededPickUnique(scores: seq<Option<real>>, n: nat, i: nat, j: nat)
    requires n <= |scores|
    requires IsSeededPick(scores, n, i) && IsSeededPick(scores, n, j)
    ensures i == j
  {
  }

  /** When no score can exceed `bound`, the first result that reaches it is
      the pick. */
  lemma FirstReachingBoundIsPicked(scores: seq<Option<real>>, bound: real, i: nat)
    requires Floor < bound
    requires forall k :: 0 <= k < |scores| && scores[k].Some? ==> scores[k].value <= bound
    requires i < |scores| && scores[i] == Some(bound)
    requires forall k :: 0 <= k < i && scores[k].Some? ==> scores[k].value < bound
    ensures IsFirstBest(scores, |scores|, i) && IsSeededPick(scores, |scores|, i)
  {
    assert Floor < scores[i].value;
  }
}

=== FILE: title_normalizer.dfy ===
/** The two title rewrites the item linker applies before comparing names:
    `standardizeTitle`, which deletes edition noise and lower-cases, and
    `convertRomanNumerals`, which replaces a run of roman letters by a
    number computed with JavaScript's loosely typed `+`, `-` and `<`. */
module TitleNormalizer {
  import opened JsValues
  import opened Patterns

  // -------------------------------------------------------------------------
  // standardizeTitle

  /** The five deletions of `standardizeTitle`, in the order it applies them:
      bracketed text, the word "trophies", a final "<word> edition", the tail
      from " with ", and a leading "the ". Each only deletes, so together
      they leave a subsequence of the title. */
  function StripNoise(title: string): (r: string)
    ensures IsSubsequence(r, title)
    ensures |r| <= |title|
  {
    var noBrackets := ReplaceAll(Brackets, title, "");
    var noTrophies := ReplaceAll(Trophies, noBrackets, "");
    var noEdition := ReplaceAll(EditionSuffix, noTrophies, "");
    var noWith := ReplaceAll(WithTail, noEdition, "");
    var r := ReplaceAll(LeadingThe, noWith, "");
    DeleteAllIsSubsequence(Brackets, title);
    DeleteAllIsSubsequence(Trophies, noBrackets);
    DeleteAllIsSubsequence(EditionSuffix, noTrophies);
    DeleteAllIsSubsequence(WithTail, noEdition);
    DeleteAllIsSubsequence(LeadingThe, noWith);
    SubsequenceTransitive(noTrophies, noBrackets, title);
    SubsequenceTransitive(noEdition, noTrophies, title);
    SubsequenceTransitive(noWith, noEdition, title);
    SubsequenceTransitive(r, noWith, title);
    SubsequenceLength(r, title);
    r
  }

  /** `standardizeTitle(title)`: the lower-cased form of a subsequence of the
      title, so never longer than it and without upper-case ASCII letters. */
  function StandardizeTitle(title: string): (r: string)
    ensures |r| <= |title|
    ensures forall k :: 0 <= k < |r| ==> !IsUpperAscii(r[k])
  {
    Lower(StripNoise(title))
  }

  /** The five deletions as a chain of intermediate texts. */
  lemma StripNoiseSteps(title: string, a: string, b: string, c: string, d: string, r: string)
    requires ReplaceAll(Brackets, title, "") == a && ReplaceAll(Trophies, a, "") == b
    requires ReplaceAll(EditionSuffix, b, "") == c && ReplaceAll(WithTail, c, "") == d
    requires ReplaceAll(LeadingThe, d, "") == r
    ensures StripNoise(title) == r
  {
  }

  /** A title none of the five patterns matches is only lower-cased. */
  lemma StandardizeCleanTitle(title: string)
    requires FirstMatch(Brackets, title, 0).None? && FirstMatch(Trophies, title, 0).None?
    requires FirstMatch(EditionSuffix, title, 0).None? && FirstMatch(WithTail, title, 0).None?
    requires FirstMatch(LeadingThe, title, 0).None?
    ensures StandardizeTitle(title) == Lower(title)
  {
    assert title[0..] == title;
    ReplaceFromWithoutMatch(Brackets, title, 0, "");
    ReplaceFromWithoutMatch(Trophies, title, 0, "");
    ReplaceFromWithoutMatch(EditionSuffix, title, 0, "");
    ReplaceFromWithoutMatch(WithTail, title, 0, "");
    ReplaceFromWithoutMatch(LeadingThe, title, 0, "");
  }

  /** No match of the edition pattern starts in 'Game ': the first word is
      not followed by "edition" at the end, and a blank starts no word. */
  lemma NoEditionSuffixInFirstWord()
    ensures forall k :: 0 <= k < 5 ==> MatchAt(EditionSuffix, "Game Deluxe Edition", k).None?
  {
    var title := "Game Deluxe Edition";
    forall k | 0 <= k < 5
      ensures MatchAt(EditionSuffix, title, k).None?
    {
      RunEndIs(title, k, 4, IsNonSpace);
    }
  }

  /** From 'Deluxe' on, the edition pattern matches to the end. */
  lemma EditionSuffixAtSecondWord()
    ensures MatchAt(EditionSuffix, "Game Deluxe Edition", 5) == Some(19)
  {
    var title := "Game Deluxe Edition";
    RunEndIs(title, 5, 11, IsNonSpace);
    assert title[12..19] == "Edition";
    assert HasWordAt(title, 12, "edition");
  }

  /** In 'Game Deluxe Edition' only the edition pattern matches, from the
      start of 'Deluxe' to the end; the blank in front of it stays. */
  lemma EditionSuffixExample()
    ensures ReplaceAll(EditionSuffix, "Game Deluxe Edition", "") == "Game "
  {
    var title := "Game Deluxe Edition";
    NoEditionSuffixInFirstWord();
    EditionSuffixAtSecondWord();
    ReplaceFromAtFirstMatch(EditionSuffix, title, 0, 5, 19, "");
    assert title[0..5] == "Game ";
  }

  /** 'Game Deluxe Edition' holds no bracket and no "trophies". */
  lemma EditionTitleKeptByFirstTwo()
    ensures ReplaceAll(Brackets, "Game Deluxe Edition", "") == "Game Deluxe Edition"
    ensures ReplaceAll(Trophies, "Game Deluxe Edition", "") == "Game Deluxe Edition"
  {
    var title := "Game Deluxe Edition";
    assert '(' !in title && '[' !in title && 'p' !in title && 'P' !in title;
    BracketsKeep(title);
    TrophiesKeep(title);
  }

  /** 'Game ' holds no " with " and does not start with "the". */
  lemma EditionTitleKeptByLastTwo()
    ensures ReplaceAll(WithTail, "Game ", "") == "Game "
    ensures ReplaceAll(LeadingThe, "Game ", "") == "Game "
  {
    var rest := "Game ";
    assert 'i' !in rest && 'I' !in rest && !IsSpace(rest[0]) && LowerChar(rest[0]) != 't';
    WithTailKeep(rest);
    LeadingTheKeep(rest);
  }

  /** Of 'Game Deluxe Edition' only the edition deletion takes anything. */
  lemma EditionTitleStripped()
    ensures StripNoise("Game Deluxe Edition") == "Game "
  {
    EditionTitleKeptByFirstTwo();
    EditionSuffixExample();
    EditionTitleKeptByLastTwo();
    var title, rest := "Game Deluxe Edition", "Game ";
    StripNoiseSteps(title, title, title, rest, rest, rest);
  }

  /** `standardizeTitle('Game Deluxe Edition')` is 'game ': the word in
      front of "edition" goes, the blank before it does not. */
  lemma StandardizeEditionExample()
    ensures StandardizeTitle("Game Deluxe Edition") == "game "
  {
    EditionTitleStripped();
    LowerGame();
  }

  /** Lower-casing 'Game ' changes only its first letter. */
  lemma LowerGame()
    ensures Lower("Game ") == "game "
  {
    LowerEach("Game ", "game ");
  }

  /** The Zelda title is the short title followed by a parenthesized
      edition on one line. */
  lemma ZeldaTitleParts()
    ensures "The Legend of Zelda: Skyward Sword" + " (" + "Special Edition" + ")"
         == "The Legend of Zelda: Skyward Sword (Special Edition)"
    ensures forall k :: 0 <= k < |"Special Edition"| ==> !IsLineTerminator("Special Edition"[k])
  {
  }

  /** The short title holds no bracket and ends in a letter. */
  lemma ZeldaShortTitleHasNoBracket()
    ensures '(' !in "The Legend of Zelda: Skyward Sword" && '[' !in "The Legend of Zelda: Skyward Sword"
    ensures !IsSpace("The Legend of Zelda: Skyward Sword"[33])
  {
  }

  /** The short title holds no 'p', in either case. */
  lemma ZeldaShortTitleHasNoP()
    ensures 'p' !in "The Legend of Zelda: Skyward Sword" && 'P' !in "The Legend of Zelda: Skyward Sword"
  {
  }

  /** The short title holds no 'i', in either case, and no blank eight
      characters before its end. */
  lemma ZeldaShortTitleHasNoI()
    ensures 'i' !in "The Legend of Zelda: Skyward Sword" && 'I' !in "The Legend of Zelda: Skyward Sword"
    ensures "The Legend of Zelda: Skyward Sword"[26] != ' '
  {
  }

  /** The bracket deletion takes ' (Special Edition)'. */
  lemma ZeldaWithoutBrackets()
    ensures ReplaceAll(Brackets, "The Legend of Zelda: Skyward Sword (Special Edition)", "")
         == "The Legend of Zelda: Skyward Sword"
  {
    ZeldaTitleParts();
    ZeldaShortTitleHasNoBracket();
    BracketsDeleteTail("The Legend of Zelda: Skyward Sword", "Special Edition");
  }

  /** 'The Legend of Zelda: Skyward Sword' holds no "trophies", no final
      "<word> edition" and no " with ". */
  lemma ZeldaKeptByMiddleThree()
    ensures ReplaceAll(Trophies, "The Legend of Zelda: Skyward Sword", "") == "The Legend of Zelda: Skyward Sword"
    ensures ReplaceAll(EditionSuffix, "The Legend of Zelda: Skyward Sword", "") == "The Legend of Zelda: Skyward Sword"
    ensures ReplaceAll(WithTail, "The Legend of Zelda: Skyward Sword", "") == "The Legend of Zelda: Skyward Sword"
  {
    ZeldaShortTitleHasNoP();
    ZeldaShortTitleHasNoI();
    TrophiesKeep("The Legend of Zelda: Skyward Sword");
    EditionSuffixKeep("The Legend of Zelda: Skyward Sword");
    WithTailKeep("The Legend of Zelda: Skyward Sword");
  }

  /** The leading-article deletion takes 'The '. */
  lemma ZeldaWithoutLeadingThe()
    ensures ReplaceAll(LeadingThe, "The Legend of Zelda: Skyward Sword", "") == "Legend of Zelda: Skyward Sword"
  {
    assert "The " + "Legend of Zelda: Skyward Sword" == "The Legend of Zelda: Skyward Sword";
    LeadingTheDelete("Legend of Zelda: Skyward Sword");
  }

  /** Of 'The Legend of Zelda: Skyward Sword (Special Edition)' the
      bracket deletion takes the parenthesized tail with the blank before
      it, and the leading-article deletion takes 'The '. */
  lemma ZeldaStripped()
    ensures StripNoise("The Legend of Zelda: Skyward Sword (Special Edition)") == "Legend of Zelda: Skyward Sword"
  {
    ZeldaWithoutBrackets();
    ZeldaKeptByMiddleThree();
    ZeldaWithoutLeadingThe();
    var t := "The Legend of Zelda: Skyward Sword";
    StripNoiseSteps("The Legend of Zelda: Skyward Sword (Special Edition)", t, t, t, t, "Legend of Zelda: Skyward Sword");
  }

  /** Lower-casing 'Legend of Zelda: Skyward Sword'. */
  lemma ZeldaLowered()
    ensures Lower("Legend of Zelda: Skyward Sword") == "legend of zelda: skyward sword"
  {
    LowerEach("Legend of Zelda: Skyward Sword", "legend of zelda: skyward sword");
  }

  /** `standardizeTitle('The Legend of Zelda: Skyward Sword (Special
      Edition)')` is 'legend of zelda: skyward sword': the parenthesized
      edition goes before the edition pattern could see it, then the
      leading article. */
  lemma StandardizeZeldaExample()
    ensures StandardizeTitle("The Legend of Zelda: Skyward Sword (Special Edition)") == "legend of zelda: skyward sword"
  {
    ZeldaStripped();
    ZeldaLowered();
  }

  // -------------------------------------------------------------------------
  // convertRomanNumerals

  /** The accumulator `dec`: it starts as the string '' (or the number 3) and
      JavaScript's `+` and `-` turn it into a string or a number. */
  datatype Acc = Text(s: string) | Number(n: nat)

  /** The last letter value `num`: `null` until an upper-case I, V or X has
      been read. */
  datatype Digit = Null | Value(n: nat)

  /** ToNumber(num): `null` reads as 0. */
  function DigitNumber(d: Digit): nat
  {
    match d
    case Null => 0
    case Value(n) => n
  }

  /** String(num). */
  function DigitText(d: Digit): string
  {
    match d
    case Null => "null"
    case Value(n) => NatToString(n)
  }

  /** ToNumber(dec), None standing for NaN. */
  function AccNumber(a: Acc): Option<nat>
  {
    match a
    case Text(s) => StringToNumber(s)
    case Number(n) => Some(n)
  }

  /** String(dec). */
  function AccText(a: Acc): string
  {
    match a
    case Text(s) => s
    case Number(n) => NatToString(n)
  }

  /** The `switch` on one character: I, V and X (upper case only) set `num`;
      any other character leaves it as it was. */
  function Lookup(c: char, prev: Digit): (d: Digit)
    ensures c !in "IVX" ==> d == prev
    ensures c == 'I' ==> d == Value(1)
    ensures c == 'V' ==> d == Value(5)
    ensures c == 'X' ==> d == Value(10)
  {
    if c == 'I' then Value(1)
    else if c == 'V' then Value(5)
    else if c == 'X' then Value(10)
    else prev
  }

  /** One `if (num < dec) dec = dec - num; else dec = dec + num;`: the
      comparison and the subtraction are numeric; the addition concatenates
      when `dec` is a string. */
  function Step(dec: Acc, num: Digit): (r: Acc)
    ensures dec.Number? ==> r.Number?
    ensures r.Text? <==> dec.Text? && !(AccNumber(dec).Some? && DigitNumber(num) < AccNumber(dec).value)
  {
    var nv := DigitNumber(num);
    match dec
    case Number(n) => if nv < n then Number(n - nv) else Number(n + nv)
    case Text(s) =>
      var v := StringToNumber(s);
      if v.Some? && nv < v.value then Number(v.value - nv) else Text(s + DigitText(num))
  }

  /** The loop `for (i = arr.length - 1; i >= 1; i--)` from index `i` on,
      with the accumulators it has reached. */
  function WalkDown(arr: string, i: int, dec: Acc, num: Digit): Acc
    requires i < |arr|
    decreases i
  {
    if i < 1 then dec
    else
      var n := Lookup(arr[i], num);
      WalkDown(arr, i - 1, Step(dec, n), n)
  }

  /** The value of one roman run (its first character is the blank): every
      III is removed first and `dec` starts at 3 when there was one, else at
      the empty string. */
  function RomanValue(roman: string): (v: Acc)
    ensures FirstMatch(TripleI, roman, 0).Some? ==> v.Number?
  {
    if FirstMatch(TripleI, roman, 0).Some? then
      var rest := ReplaceAll(TripleI, roman, "");
      NumberStaysNumber(rest, |rest| - 1, 3, Null);
      WalkDown(rest, |rest| - 1, Number(3), Null)
    else
      WalkDown(roman, |roman| - 1, Text(""), Null)
  }

  /** What `convertRomanNumerals(name)` returns: a name without a run of a
      blank and roman letters is unchanged; otherwise the text before the
      first run is kept, the first run becomes a blank and its value, and
      every later run is replaced by that same text. */
  function RomanConversion(name: string): (r: string)
    ensures FirstMatch(RomanRun, name, 0).None? ==> r == name
    ensures FirstMatch(RomanRun, name, 0).Some? ==>
              var m := FirstMatch(RomanRun, name, 0).value;
              var text := " " + AccText(RomanValue(name[m.0..m.1]));
              r == name[..m.0] + text + ReplaceFrom(RomanRun, name, m.1, text)
  {
    match FirstMatch(RomanRun, name, 0)
    case None => name
    case Some(m) =>
      var text := " " + AccText(RomanValue(name[m.0..m.1]));
      ReplaceFromAtFirstMatch(RomanRun, name, 0, m.0, m.1, text);
      assert name[0..m.0] == name[..m.0];
      ReplaceAll(RomanRun, name, text)
  }

  /** `convertRomanNumerals(name)`. */
  method ConvertRomanNumerals(name: string) returns (r: string)
    ensures r == RomanConversion(name)
  {
    var m := FirstMatch(RomanRun, name, 0);
    if m.None? {
      return name;
    }
    var roman := name[m.value.0..m.value.1];
    var dec: Acc := Text("");
    if FirstMatch(TripleI, roman, 0).Some? {
      dec := Number(3);
      roman := ReplaceAll(TripleI, roman, "");
    }
    var num: Digit := Null;
    var i: int := |roman| - 1;
    ghost var start := dec;
    while i >= 1
      invariant -1 <= i < |roman|
      invariant WalkDown(roman, i, dec, num) == WalkDown(roman, |roman| - 1, start, Null)
      decreases i
    {
      num := Lookup(roman[i], num);
      dec := Step(dec, num);
      i := i - 1;
    }
    r := ReplaceAll(RomanRun, name, " " + AccText(dec));
  }

  // -------------------------------------------------------------------------
  // Properties of the conversion

  /** A name without a run of roman letters comes back unchanged. */
  lemma NoRunUnchanged(name: string)
    requires forall k :: 0 <= k <= |name| ==> MatchAt(RomanRun, name, k).None?
    ensures RomanConversion(name) == name
  {
    assert FirstMatch(RomanRun, name, 0).None?;
  }

  /** Once `dec` is a number it stays one. */
  lemma {:induction false} NumberStaysNumber(arr: string, i: int, n: nat, num: Digit)
    requires i < |arr|
    ensures WalkDown(arr, i, Number(n), num).Number?
    decreases i
  {
    if i >= 1 {
      var d := Lookup(arr[i], num);
      var next := Step(Number(n), d);
      NumberStaysNumber(arr, i - 1, next.n, d);
    }
  }

  /** The III case: ' III' is 3. */
  lemma TripleIExample()
    ensures RomanValue(" III") == Number(3)
  {
    assert MatchAt(TripleI, " III", 0).None?;
    assert FirstMatch(TripleI, " III", 0) == Some((1, 4));
    assert ReplaceAll(TripleI, " III", "") == " ";
  }

  /** ' VIII' is 8: the III goes first, then V is added to the 3. */
  lemma TripleIAfterVExample()
    ensures RomanValue(" VIII") == Number(8)
  {
    assert MatchAt(TripleI, " VIII", 0).None?;
    assert MatchAt(TripleI, " VIII", 1).None?;
    assert FirstMatch(TripleI, " VIII", 0) == Some((2, 5));
    assert ReplaceAll(TripleI, " VIII", "") == " V";
    assert WalkDown(" V", 1, Number(3), Null) == WalkDown(" V", 0, Number(8), Value(5));
  }

  /** ' IIII' is 2: one III goes, and the I left over is subtracted from 3. */
  lemma FourIExample()
    ensures RomanValue(" IIII") == Number(2)
  {
    assert MatchAt(TripleI, " IIII", 0).None?;
    assert FirstMatch(TripleI, " IIII", 0) == Some((1, 4));
    assert ReplaceAll(TripleI, " IIII", "") == " I";
    assert WalkDown(" I", 1, Number(3), Null) == WalkDown(" I", 0, Number(2), Value(1));
  }

  /** Without III the accumulator starts as '', so additions concatenate:
      ' II' is '11'. */
  lemma TwoIExample()
    ensures RomanValue(" II") == Text("11")
  {
    assert FirstMatch(TripleI, " II", 0).None?;
    var one := NatToString(1);
    assert one == "1";
    StringToNumberOfNat(1);
    assert Step(Text(""), Value(1)) == Text("1");
    assert Step(Text("1"), Value(1)) == Text("11");
    assert WalkDown(" II", 2, Text(""), Null) == WalkDown(" II", 1, Text("1"), Value(1));
    assert WalkDown(" II", 1, Text("1"), Value(1)) == WalkDown(" II", 0, Text("11"), Value(1));
  }

  /** ' VI' is '15': I gives '1', then V is appended. */
  lemma SixExample()
    ensures RomanValue(" VI") == Text("15")
  {
    assert FirstMatch(TripleI, " VI", 0).None?;
    assert NatToString(1) == "1" && NatToString(5) == "5";
    StringToNumberOfNat(1);
    assert Step(Text(""), Value(1)) == Text("1");
    assert Step(Text("1"), Value(5)) == Text("15");
    assert WalkDown(" VI", 2, Text(""), Null) == WalkDown(" VI", 1, Text("1"), Value(1));
    assert WalkDown(" VI", 1, Text("1"), Value(1)) == WalkDown(" VI", 0, Text("15"), Value(5));
  }

  /** A smaller letter before a larger one subtracts and makes the
      accumulator numeric: ' IV' is 4 ... */
  lemma FourExample()
    ensures RomanValue(" IV") == Number(4)
  {
    assert FirstMatch(TripleI, " IV", 0).None?;
    assert NatToString(5) == "5";
    StringToNumberOfNat(5);
    assert Step(Text(""), Value(5)) == Text("5");
    assert Step(Text("5"), Value(1)) == Number(4);
    assert WalkDown(" IV", 2, Text(""), Null) == WalkDown(" IV", 1, Text("5"), Value(5));
    assert WalkDown(" IV", 1, Text("5"), Value(5)) == WalkDown(" IV", 0, Number(4), Value(1));
  }

  /** ... and ' IX' is 9. */
  lemma NineExample()
    ensures RomanValue(" IX") == Number(9)
  {
    assert FirstMatch(TripleI, " IX", 0).None?;
    var ten := NatToString(10);
    assert Step(Text(""), Value(10)) == Text(ten);
    StringToNumberOfNat(10);
    assert Step(Text(ten), Value(1)) == Number(9);
    assert WalkDown(" IX", 2, Text(""), Null) == WalkDown(" IX", 1, Text(ten), Value(10));
  }

  // -------------------------------------------------------------------------
  // Whole names

  /** ' III' becomes ' 3'. */
  lemma TripleINameExample()
    ensures RomanConversion(" III") == " 3"
  {
    var name := " III";
    assert RunEnd(name, 1, IsRomanLetter) == 4;
    assert FirstMatch(RomanRun, name, 0) == Some((0, 4));
    assert name[0..4] == name;
    TripleIExample();
    assert AccText(Number(3)) == "3";
    assert ReplaceFrom(RomanRun, name, 4, " 3") == [];
  }

  /** ' VIII' becomes ' 8'. */
  lemma TripleIAfterVNameExample()
    ensures RomanConversion(" VIII") == " 8"
  {
    var name := " VIII";
    assert RunEnd(name, 1, IsRomanLetter) == 5;
    assert FirstMatch(RomanRun, name, 0) == Some((0, 5));
    assert name[0..5] == name;
    TripleIAfterVExample();
    assert AccText(Number(8)) == "8";
    assert ReplaceFrom(RomanRun, name, 5, " 8") == [];
  }

  /** ' II' becomes ' 11'. */
  lemma TwoINameExample()
    ensures RomanConversion(" II") == " 11"
  {
    var name := " II";
    assert RunEnd(name, 1, IsRomanLetter) == 3;
    assert FirstMatch(RomanRun, name, 0) == Some((0, 3));
    assert name[0..3] == name;
    TwoIExample();
    assert ReplaceFrom(RomanRun, name, 3, " 11") == [];
  }

  /** In 'A II X' the first run is ' II', at positions 1 to 4. */
  lemma FirstRunOfExample()
    ensures FirstMatch(RomanRun, "A II X", 0) == Some((1, 4))
  {
    var name := "A II X";
    assert MatchAt(RomanRun, name, 0).None?;
    assert RunEnd(name, 2, IsRomanLetter) == 4;
  }

  /** After the first run of 'A II X', the run ' X' is replaced as well. */
  lemma SecondRunOfExample()
    ensures ReplaceFrom(RomanRun, "A II X", 4, " 11") == " 11"
  {
    var name := "A II X";
    assert RunEnd(name, 5, IsRomanLetter) == 6;
    assert MatchAt(RomanRun, name, 4) == Some(6);
    assert ReplaceFrom(RomanRun, name, 6, " 11") == [];
    ReplaceAtMatch(RomanRun, name, 4, 6, " 11");
  }

  /** The text that replaces the first run of 'A II X'. */
  lemma FirstRunTextExample()
    ensures " " + AccText(RomanValue("A II X"[1..4])) == " 11"
  {
    assert "A II X"[1..4] == " II";
    TwoIExample();
  }

  /** Every run takes the value of the first one: in 'A II X' the ' X' is
      replaced by ' 11' too. */
  lemma EveryRunGetsFirstValue()
    ensures RomanConversion("A II X") == "A 11 11"
  {
    assert "A II X"[..1] == "A";
    FirstRunOfExample();
    FirstRunTextExample();
    SecondRunOfExample();
  }
}
